=== FILE: README.md ===
# Button memory games: a Dafny model

This project models the game engines of three single-player memory games
played on chat buttons. The chat transport is not modelled.

- **Chimp test.** The numbers 1..`count` are placed on a 5x5 board. The
  player clicks them in order after the labels are hidden. A right click
  advances `step`, and a wrong click costs a life and turns the button red.
  The game is won when every target has been clicked and lost when the lives
  reach zero.
- **Number memory.** A number of `level` digits is shown and then hidden.
  The player types it back. A right answer moves to the next level, with a
  longer number and a longer display time. A wrong answer ends the game.
  Input that is not a digit string is turned away with no change.
- **Verbal memory.** Words are shown one at a time. For each word, the
  player answers "Seen" or "New". A right answer scores a point and a wrong
  one costs a life. The next word is either a fresh draw, taken out of the
  pool, or a word already seen.

Each game is an immutable record with pure transition functions. Every random
choice is an explicit parameter:

- the chimp test's stream of cell draws;
- number memory's digit indices;
- verbal memory's `Pick`.

The files:

| file | module | what |
|---|---|---|
| results.dfy | `Results` | the `Result` type used for the source's exceptions |
| chimp_grid.dfy | `ChimpGrid` | rejection-sampling placement of the targets |
| chimp_view.dfy | `ChimpView` | buttons, their initial state, `update_view` |
| chimp_game.dfy | `ChimpGame` | the session state, its invariant, a click, the end of the initial sleep |
| chimp_play.dfy | `ChimpPlay` | sequences of clicks: perfect play, losing play, quirks of the handler |
| number_memory.dfy | `NumberMemory` | `generate_number`, start, hiding, `on_submit` |
| verbal_memory.dfy | `VerbalMemory` | `choose_word`, start, the Seen/New handler, the markers of the embed description |

### Chimp test

A chimp test session (`ChimpGame.Session`) is a game that keeps `ChimpGame.Inv`:

- the board is a valid placement;
- `step <= count`;
- the game is won exactly when `step == count`;
- a lost game has zero lives;
- every button was built from its grid value, and it is disabled exactly when its cell is empty or the game is over;
- a green button is a target already reached, and a red button of a running game is a listed wrong guess, unless the base style is that colour itself;
- nothing has changed before the first click.

A click is modelled only when the chat surface can deliver it: the view must
still run and the button must be enabled (`ChimpGame.Clickable`).
`ChimpPlay.Replay` drops the clicks that cannot be delivered.

Some consequences of the handler as written, each proved:

- A target that was already clicked correctly stays enabled. A click is
  judged only by comparing its index with `coordinates[step]`, so clicking
  that target again is a miss that costs a life (`ChimpPlay.ReclickIsMiss`).
- A target that was mis-clicked before its turn is still in
  `wrong_guesses` when it is later clicked in order. The reset loop then
  repaints it in the base style `button_style`. So it ends green only when
  the base style itself is green (`ChimpPlay.EarlyMissedTargetTakesBaseStyle`).
- A game started with `lives <= 0` can never be lost, because the handler
  tests for exactly zero (`ChimpPlay.NoLivesNeverLost`). The same holds for
  verbal memory (`VerbalMemory.NoLivesNeverLost`).

### Number memory

After a right answer, the handler sleeps for the display time and then hides
the number without checking whether the game is still running. A second
Answer modal, opened before the first was submitted, can end the game during
that sleep. The hide that follows enables the Answer button of the stopped
game again (`NumberMemory.HideAfterStopEnablesAnswer`).

## Model

Source paths are relative to the repository root.

| member | source | states |
|---|---|---|
| ChimpGrid.Generate | discord_games/button_games/chimp_test.py:120-132 | a count outside 1..25 fails with `OutOfRange`, and nothing else does; inside that range, placement succeeds exactly when the draws hold at least `count` different cells; the coordinates are then the first `count` different cells in draw order (`FirstDistinct`), `grid[coordinates[i]] == i + 1`, and every other cell is 0; when the first `count` draws are all different, the coordinates are exactly those draws |
| ChimpGrid.FirstDistinctMembers | discord_games/button_games/chimp_test.py:126-132 | the reference order of placement (each drawn cell kept the first time it is drawn) holds every drawn cell and nothing else |
| ChimpGrid.FirstDistinctOfDistinct | discord_games/button_games/chimp_test.py:126-132 | when the first `n` draws are all different, they are the first `n` entries of that order |
| ChimpGrid.NextFree | discord_games/button_games/chimp_test.py:127-129 | the redraw loop returns the first draw, from the current position on, that hits an empty cell; every draw it skips hit a taken cell; when it finds none, every remaining draw hits a taken cell |
| ChimpGrid.PlaceStep | discord_games/button_games/chimp_test.py:131-132 | appending the new cell to the coordinates and writing its number into the grid keeps the placement valid for one more target |
| ChimpView.LabelOf | discord_games/button_games/chimp_test.py:18 | a label is blank exactly for an empty cell and otherwise shows the cell's number |
| ChimpView.InitialCells | discord_games/button_games/chimp_test.py:90-94 | one gray button per grid entry, built from that entry, labelled `str(value or "\u200b")` (`LabelOf`), disabled exactly when empty |
| ChimpView.UpdateView | discord_games/button_games/chimp_test.py:96-107 | values and enabled flags are kept; green buttons, empty cells, and every button when `highlight` is off keep their style; any changed style is the given style; labels show the value exactly when `show` is set and the cell is non-empty |
| ChimpView.DisableAll | discord_games/button_games/chimp_test.py:42-44 | every button becomes disabled and nothing else about it changes |
| ChimpView.Restyle | discord_games/button_games/chimp_test.py:39-40 | every listed wrong guess takes the given style; every other button is unchanged |
| ChimpView.UpdateViewIdempotent | discord_games/button_games/chimp_test.py:103-107 | applying `update_view` twice with the same arguments equals applying it once |
| ChimpGame.NewGame | discord_games/button_games/chimp_test.py:115-180 | construction fails with `OutOfRange` exactly on a count outside 1..25, and otherwise fails exactly when the draws hold fewer than `count` different cells; on success the coordinates are the first `count` different cells drawn, and the new session has the given `highlight_tiles` and `button_style`, `step == 0`, the given lives, `first_clicked` false, no wrong guesses, a running view, and buttons disabled exactly on empty cells and labelled with their numbers |
| ChimpGame.HiddenCells | discord_games/button_games/chimp_test.py:28-31 | hiding the labels of a running board: every button loses its label; with `highlight_tiles`, each numbered button that is not green takes `button_style`; values and enabled flags stay |
| ChimpGame.HiddenPristine | discord_games/button_games/chimp_test.py:26-31 | on an untouched board, hiding gives every button a blank label, its value and enabled flag, and `button_style` on numbered tiles when `highlight_tiles` is set, gray otherwise |
| ChimpGame.HiddenInv | discord_games/button_games/chimp_test.py:28-31 | hiding the labels and highlighting the tiles keeps the session invariant |
| ChimpGame.FirstClickHide | discord_games/button_games/chimp_test.py:26-31 | after the first-click step, `first_clicked` is set and the board, step, lives and wrong guesses are unchanged; the first time, the buttons are `update_view(button_style, highlight=highlight_tiles)` of the previous ones; afterwards, nothing changes |
| ChimpGame.FirstClickHideCells | discord_games/button_games/chimp_test.py:26-31 | on an untouched board the first click leaves every button with a blank label, its value and enabled flag, and `button_style` on numbered tiles when `highlight_tiles` is set, gray otherwise |
| ChimpGame.HitCells | discord_games/button_games/chimp_test.py:35-40 | the clicked button shows its number and turns green, unless it is a listed wrong guess; every listed wrong guess takes the base style; nothing else changes |
| ChimpGame.HitStateCounts | discord_games/button_games/chimp_test.py:33-47 | a correct click keeps the board, lives and wrong guesses, increments `step`, and wins exactly when `step` reaches `count` |
| ChimpGame.HitStateCells | discord_games/button_games/chimp_test.py:35-40 | after a correct click the button shows its number, is green unless it is a listed wrong guess, and every listed wrong guess has the base style |
| ChimpGame.HitStateInv | discord_games/button_games/chimp_test.py:33-47 | a correct click keeps the session invariant |
| ChimpGame.Hit | discord_games/button_games/chimp_test.py:33-52 | a click on `coordinates[step]` increments `step` by one and keeps lives and the wrong-guess list; it wins exactly when `step` reaches `count`; the button shows its number; wrong guesses are repainted in the base style; no other button changes (`HitFrame`) |
| ChimpGame.HitFrame | discord_games/button_games/chimp_test.py:33-47 | after a correct click the buttons are exactly `HitCells` of the previous ones, all of them disabled when the click wins |
| ChimpGame.LossCells | discord_games/button_games/chimp_test.py:56-62 | on the losing click every button is disabled, keeps its value and shows its label (its number, blank on an empty cell); the clicked one is red; every other numbered button that is not green takes the base style, and the rest keep theirs |
| ChimpGame.MissStateCounts | discord_games/button_games/chimp_test.py:53-71 | a wrong click keeps the board and `step`, decrements lives, loses exactly at zero lives, turns the button red, and adds it to the wrong guesses exactly when the game goes on |
| ChimpGame.MissStateCells | discord_games/button_games/chimp_test.py:53-62 | after a wrong click that leaves lives, only the clicked button changes, and only its style, which turns red; after the losing click the buttons are exactly `LossCells` of the previous ones |
| ChimpGame.MissFrame | discord_games/button_games/chimp_test.py:53-71 | a wrong click that leaves lives changes only the clicked button, which turns red; the losing click leaves exactly `LossCells` of the previous buttons |
| ChimpGame.MissStateInv | discord_games/button_games/chimp_test.py:53-71 | a wrong click keeps the session invariant |
| ChimpGame.Miss | discord_games/button_games/chimp_test.py:53-75 | any other click decrements lives by one and keeps `step`; it loses exactly at zero lives; the button turns red; it joins the wrong guesses exactly when the game goes on; while the game goes on no other button changes (`MissFrame`) |
| ChimpGame.Click | discord_games/button_games/chimp_test.py:22-75 | a delivered click sets `first_clicked` and keeps the board; hit and miss are decided by `coordinates[step]` alone, with the step and lives accounting above; the game is won or lost exactly when the outcome says so |
| ChimpGame.SleepExpired | discord_games/button_games/chimp_test.py:191-199 | the end of the initial sleep sets `first_clicked`; if the view still runs, the buttons are `update_view(button_style, highlight=highlight_tiles)` of the previous ones, so every label is hidden; on an untouched board numbered tiles take `button_style` exactly when `highlight_tiles` is set; a stopped view keeps its buttons |
| ChimpPlay.Replay | discord_games/button_games/chimp_test.py:26-75 | across any click sequence the board never changes, `step` never decreases, lives never increase, `first_clicked` is never reset, and a stopped game produces no outcomes |
| ChimpPlay.HitStep | discord_games/button_games/chimp_test.py:33-47 | the next target of a running game can be clicked; the click advances `step` by one, keeps lives and never loses |
| ChimpPlay.HitReplay | discord_games/button_games/chimp_test.py:33-52 | in a running game, the click on the next target is delivered, advances `step` by one, keeps lives, and the rest of the clicks continue from the resulting state; it is `CorrectAndWon` exactly on the last target |
| ChimpPlay.InOrderClicksWin | discord_games/button_games/chimp_test.py:33-47 | clicking the remaining targets in order wins with `step == count` and no life lost |
| ChimpPlay.InOrderOutcomes | discord_games/button_games/chimp_test.py:42-52 | that play yields `Correct` for every target but the last and `CorrectAndWon` for the last |
| ChimpPlay.MissStep | discord_games/button_games/chimp_test.py:53-71 | a click on any other non-empty cell can be delivered; it costs one life, keeps `step` and never wins |
| ChimpPlay.MissReplay | discord_games/button_games/chimp_test.py:53-75 | in a running game, a click on another non-empty cell is delivered, costs one life, keeps `step`, and the rest continues from the resulting state; it is `IncorrectAndLost` exactly when it was the last life |
| ChimpPlay.MissesLose | discord_games/button_games/chimp_test.py:53-67 | `lives` such clicks in a row lose the game at zero lives without moving `step` |
| ChimpPlay.MissesOutcomes | discord_games/button_games/chimp_test.py:53-75 | that play yields `Incorrect` for every click but the last and `IncorrectAndLost` for the last |
| ChimpPlay.WinDisablesBoard | discord_games/button_games/chimp_test.py:42-47 | the click on the last target wins and disables every button |
| ChimpPlay.LossRevealsBoard | discord_games/button_games/chimp_test.py:56-62 | the click that uses up the last life loses, shows every cell's label (its number, blank on an empty cell) and disables every button |
| ChimpPlay.NoLivesNeverLost | discord_games/button_games/chimp_test.py:54-56 | a game with `lives <= 0` is never lost, whatever is clicked |
| ChimpPlay.ReclickIsMiss | discord_games/button_games/chimp_test.py:33-34 | a target already clicked correctly is still enabled, and clicking it again costs a life without moving `step` |
| ChimpPlay.EarlyMissedTargetTakesBaseStyle | discord_games/button_games/chimp_test.py:35-40 | a target that is in the wrong guesses, when clicked in order, ends in the base style `button_style`, so it is green only when that is the base style |
| ChimpPlay.StoppedGameIsFrozen | discord_games/button_games/chimp_test.py:42-67 | once the game is won or lost no button can be clicked and further clicks change nothing |
| NumberMemory.DigitStringChars | discord_games/button_games/number_memory.py:35 | a string passes the ASCII digit test that stands in for `str.isdigit` exactly when it is non-empty and every character is one of '0'..'9' |
| NumberMemory.GenerateNumber | discord_games/button_games/number_memory.py:158-163 | the number has `level` characters (one when `level` is below one), all of them decimal digits, the first one non-zero; each character is the drawn digit |
| NumberMemory.GenerateNumberOnto | discord_games/button_games/number_memory.py:158-163 | every such number comes from some valid draws |
| NumberMemory.GenerateNumberInjective | discord_games/button_games/number_memory.py:158-163 | different draws give different numbers, so draws and numbers correspond one to one |
| NumberMemory.Start | discord_games/button_games/number_memory.py:103-115 | a new game is at level 1 with a single non-zero digit on display, the one `generate_number` makes from the given draw, the given display time and increment, and the Answer button disabled |
| NumberMemory.Hide | discord_games/button_games/number_memory.py:138-145 | hiding the number shows the prompt and enables the Answer button, keeping level, number, display time and the stopped flag; it keeps the invariant of a running game |
| NumberMemory.HideAfterStopEnablesAnswer | discord_games/button_games/number_memory.py:52-53 | the hide after a right answer's display time is unconditional: if a stale modal stopped the game meanwhile, the Answer button of the stopped game is enabled again |
| NumberMemory.Submit | discord_games/button_games/number_memory.py:30-70 | non-digit input is rejected and changes nothing; the right number raises the level by one, adds the increment to the display time, and shows the number `generate_number` makes from the given draws at the new level, with the Answer button disabled; any other digit string keeps the level and number, shows both numbers, disables both buttons and stops the game |
| NumberMemory.NextNumberCanBeAny | discord_games/button_games/number_memory.py:40-43 | every number the next level can have follows a right answer for some valid draws |
| NumberMemory.StartCanShowAny | discord_games/button_games/number_memory.py:112-115 | every non-zero digit can open a game for some valid draw |
| NumberMemory.SubmitKeepsInv | discord_games/button_games/number_memory.py:40-70 | an answer through the enabled Answer button keeps the invariant: the number fits the level, and Answer is enabled exactly while the game runs and the number is hidden |
| NumberMemory.LeadingZeroIsWrong | discord_games/button_games/number_memory.py:35-40 | the shown number is always accepted as digits and judged right; the same digits with a leading zero are judged wrong |
| NumberMemory.PlayPerfect | discord_games/button_games/number_memory.py:40-53 | rounds of hiding and typing the number back keep the invariant |
| NumberMemory.PerfectStep | discord_games/button_games/number_memory.py:40-53 | a round in which the shown number is typed back is judged right: the level grows by one, the display time by one increment, and the next round starts from the new number on display |
| NumberMemory.PerfectRoundsLevel | discord_games/button_games/number_memory.py:40-43 | after `n` perfect rounds the level has grown by `n`, the display time by `n` increments, and the game still runs |
| VerbalMemory.RemoveFirst | discord_games/button_games/verbal_memory.py:116-117 | removing a word takes exactly one copy out of the list if there is one |
| VerbalMemory.RemoveFirstDropsFirst | discord_games/button_games/verbal_memory.py:116-117 | when the word is in the list, removal cuts out exactly its first copy and keeps every other entry in order |
| VerbalMemory.RemoveFirstAbsent | discord_games/button_games/verbal_memory.py:116-117 | when the word is not in the list, removal leaves the list as it was |
| VerbalMemory.RemoveFirstNoDup | discord_games/button_games/verbal_memory.py:116-117 | on a list without repeats the word is gone afterwards, no repeats appear, and every other word stays |
| VerbalMemory.ChooseWord | discord_games/button_games/verbal_memory.py:109-118 | drawing fails exactly on an empty pool; the word is the drawn pool entry, or the drawn seen word when one is taken; the pool loses exactly one copy of the word if it held one, so it shrinks by at most one |
| VerbalMemory.ChooseWordSource | discord_games/button_games/verbal_memory.py:110-115 | the chosen word comes from the pool or from the seen words, and from the pool while nothing is seen |
| VerbalMemory.ChooseWordLeavesPool | discord_games/button_games/verbal_memory.py:109-118 | with a pool free of repeats the chosen word is no longer in the pool, which keeps every other word |
| VerbalMemory.DuplicateStaysInPool | discord_games/button_games/verbal_memory.py:116-117 | with a repeated word in the pool, the drawn word is still in the pool afterwards |
| VerbalMemory.Start | discord_games/button_games/verbal_memory.py:103-107 | an empty pool fails; otherwise the first word comes out of the pool, nothing is seen, the score is 0, the title is the word and both markers are neutral |
| VerbalMemory.StartInv | discord_games/button_games/verbal_memory.py:105-107 | a new game keeps the invariant, and a pool without repeats gives a game whose pool holds neither the shown nor any seen word |
| VerbalMemory.Answer | discord_games/button_games/verbal_memory.py:20-59 | an answer is right exactly for "Seen" on a seen word or "New" on an unseen one; a right answer adds one to the score and keeps the lives, and a wrong one takes a life and keeps the score; "+" marks exactly a gained point and "-" exactly a lost life; at zero lives the game is lost with the losing title, before the word is recorded; otherwise the previous word is in `seen`, the next word is the drawn pool entry or, when the seen word is taken, the drawn seen word, and one copy of it, if the pool holds one, is taken out of the pool |
| VerbalMemory.IsCorrectExactlyOne | discord_games/button_games/verbal_memory.py:32-37 | exactly one of "Seen" and "New" is the right answer, and "Seen" is right exactly when the word is already in `seen` |
| VerbalMemory.SeenAfter | discord_games/button_games/verbal_memory.py:53-54 | recording the word extends `seen` at its end, adds the word and nothing else, and lengthens it only when the word was not there |
| VerbalMemory.SeenAfterNoDup | discord_games/button_games/verbal_memory.py:53-54 | recording the word keeps `seen` free of repeats |
| VerbalMemory.AnswerKeepsInv | discord_games/button_games/verbal_memory.py:20-59 | every answer keeps `seen` free of repeats and the embed description in step with score and lives, and keeps the pool, shown word and seen words apart |
| VerbalMemory.FirstWordIsNew | discord_games/button_games/verbal_memory.py:32-43 | with nothing seen yet, "New" scores a point and "Seen" costs a life |
| VerbalMemory.NoLivesNeverLost | discord_games/button_games/verbal_memory.py:41-51 | with `lives <= 0` a wrong answer never ends the game |

## Left out

- Chat transport: sending, editing and deleting messages, modals, message contents, the Cancel buttons, view timeouts and waiting for deletion. An outcome value stands for the message the source edits in.
- Button delivery: the chat surface delivers clicks only on enabled buttons of a running view. Chimp clicks and verbal answers therefore require a running game and, in the chimp test, an enabled button.
- Suspension inside a handler: each callback is modelled as one atomic step. The source awaits message edits partway through a handler, so another interaction can run in between. Examples are the losing chimp and verbal branches, which stop the view only after the edit, and number memory's right answer, which disables Answer only after `update_embed()`. These windows are not modelled.
- The helpers from the unseen `utils` module. `disable_all` is taken to disable every button of the view. `chunk` only lays the 25 buttons out in rows of five, and it is not part of this model.
- Sleeps and clocks. Only their effect when they end is modelled (`ChimpGame.SleepExpired`, `NumberMemory.Hide`). Display times are integers, not floats.
- Image rendering of the number, and the `english_words` word list. The word pool is a parameter, given after the source's fallback to a sample of English words.
- The weights of verbal memory's choice between a fresh and a seen word. Any choice is allowed through `Pick.takeSeen`.
- The 2048 game file. It is a button wrapper around an engine that is not part of this model.
- ChimpGrid.Generate: the draw stream is finite. A stream that holds fewer than `count` different cells runs out before all targets are placed and gives `DrawsExhausted`. The source cannot fail this way, because it redraws until it draws an empty cell.
- NumberMemory.DigitStringChars: the digit test accepts only ASCII 0-9, where `str.isdigit` also accepts other Unicode digits.
- NumberMemory.Submit: only ASCII 0-9 count as digits. Python's `str.isdigit` also accepts other Unicode digits, such as superscripts. The source would judge those answers wrong, while the model rejects them as non-numbers.
- NumberMemory.Submit: a second Answer modal opened before the first was submitted can still be submitted later. `Submit` itself has no precondition on the buttons and follows the code. The invariant lemma covers only answers given through the enabled button.
- Aliasing of the word list: the source stores the list it is given (`self.word_set = word_set or ...`) and removes drawn words from it in place, so the caller's list shrinks too. The model keeps the pool as a value inside the game and does not model that sharing.
- VerbalMemory.Answer: on an empty pool the source raises inside `choose_word`, after it has already updated score, lives and `seen`. The model returns `EmptyPool` and drops those partial updates.
- The chimp test's error message says counts go up to 26, but the test accepts 1..25. Only the test is modelled.

=== FILE: chimp_game.dfy ===
/** The chimp test session: the state `ChimpTest` keeps, its construction, and
    the two events that change it, a button click (`ChimpButton.callback`) and
    the end of the optional initial sleep (`ChimpTest.start`). */
module ChimpGame {
  import opened Results
  import opened ChimpGrid
  import opened ChimpView

  datatype Status = Playing | Won | Lost

  /** What a click leads to; the message the source edits in follows from it. */
  datatype Outcome = Correct | CorrectAndWon | Incorrect | IncorrectAndLost

  /** `grid` and `coordinates` are fixed at construction; `wrongGuesses` lists
      the indices of the mis-clicked buttons in click order (with repeats);
      `status` records whether the view has been stopped and why. */
  datatype Game = Game(
    count: nat,
    board: Placement,
    step: nat,
    lives: int,
    firstClicked: bool,
    wrongGuesses: seq<nat>,
    highlightTiles: bool,
    buttonStyle: Style,
    cells: seq<Cell>,
    status: Status)
  {
    /** The board, `ChimpTest.grid`. */
    const grid: seq<nat> := board.grid
    /** The targets in order, `ChimpTest.coordinates`. */
    const coordinates: seq<nat> := board.coordinates
  }

  /** The board is a valid placement and there is one button per cell. */
  predicate BoardOk(g: Game) {
    && 1 <= g.count <= Cells
    && ValidPlacement(g.board, g.count)
    && |g.cells| == Cells
  }

  /** `step` counts reached targets; the game is won exactly when all are
      reached and lost only at zero lives. */
  predicate ProgressOk(g: Game) {
    && g.step <= g.count
    && (g.status == Won <==> g.step == g.count)
    && (g.status == Lost ==> g.lives == 0)
  }

  /** What holds of button `i`: it was built from `grid[i]`; it is disabled
      exactly when empty or once the view stopped; an empty cell is never
      repainted or labelled; unless green is the base style, a green button is
      a target already reached; unless red is the base style, a red button of
      a running game is a listed wrong guess. */
  predicate CellOk(g: Game, i: nat) {
    && i < |g.cells| && i < |g.grid|
    && g.cells[i].value == g.grid[i]
    && (g.cells[i].disabled <==> g.status != Playing || g.grid[i] == 0)
    && (g.grid[i] == 0 ==> g.cells[i].style == Gray && g.cells[i].text == Blank)
    && (g.buttonStyle != Green && g.cells[i].style == Green ==> g.grid[i] <= g.step)
    && (g.buttonStyle != Red && g.status == Playing && g.cells[i].style == Red ==> i in g.wrongGuesses)
  }

  /** Wrong guesses are clicks on non-empty cells. */
  predicate WrongGuessesOk(g: Game) {
    forall k :: 0 <= k < |g.wrongGuesses| ==>
      g.wrongGuesses[k] < Cells && g.wrongGuesses[k] < |g.grid| && g.grid[g.wrongGuesses[k]] != 0
  }

  /** Nothing has happened before the first click (or the end of the sleep). */
  predicate PristineOk(g: Game) {
    !g.firstClicked ==>
      g.step == 0 && g.wrongGuesses == [] && g.status == Playing && g.cells == InitialCells(g.grid)
  }

  /** The state invariant every reachable game keeps. */
  predicate Inv(g: Game) {
    && BoardOk(g)
    && ProgressOk(g)
    && (forall i :: 0 <= i < Cells ==> CellOk(g, i))
    && WrongGuessesOk(g)
    && PristineOk(g)
  }

  /** A game that keeps the invariant: the only kind the operations accept
      and produce. */
  type Session = g: Game | Inv(g)
    witness Game(1, Placement([1] + seq(24, _ => 0), [0]), 0, 1, false, [], true, Blurple,
                 InitialCells([1] + seq(24, _ => 0)), Playing)

  /** `a` and `b` share the board and the configuration fixed by `start`. */
  predicate SameBoard(a: Game, b: Game) {
    && a.count == b.count && a.board == b.board
    && a.highlightTiles == b.highlightTiles && a.buttonStyle == b.buttonStyle
  }

  /** A click the surface can deliver: the view runs and the button is enabled. */
  predicate Clickable(g: Game, idx: nat) {
    g.status == Playing && idx < |g.cells| && !g.cells[idx].disabled
  }

  /** `ChimpTest(count)` followed by `start(lives, highlight_tiles, button_style)`. */
  method NewGame(count: int, draws: seq<nat>, lives: int, highlightTiles: bool, buttonStyle: Style)
    returns (r: Result<Session, GridError>)
    requires ValidDraws(draws)
    ensures (r.Failure? && r.error.OutOfRange?) <==> !(1 <= count <= Cells)
    ensures r.Success? <==> 1 <= count <= Cells && count <= |FirstDistinct(draws)|
    ensures r.Success? ==> r.value.coordinates == FirstDistinct(draws)[..count]
    ensures r.Success? ==>
              && r.value.count == count
              && r.value.highlightTiles == highlightTiles
              && r.value.buttonStyle == buttonStyle
              && r.value.step == 0
              && r.value.lives == lives
              && !r.value.firstClicked
              && r.value.wrongGuesses == []
              && r.value.status == Playing
    ensures r.Success? ==> forall i :: 0 <= i < Cells ==>
              (r.value.cells[i].disabled <==> r.value.grid[i] == 0)
              && r.value.cells[i].text == LabelOf(r.value.grid[i])
  {
    var placed := Generate(count, draws);
    if placed.Failure? {
      return Failure(placed.error);
    }
    var p := placed.value;
    r := Success(Game(count, p, 0, lives, false, [], highlightTiles, buttonStyle,
                      InitialCells(p.grid), Playing));
  }

  /** `update_view(button_style, highlight=highlight_tiles)`, done once the
      reveal phase ends: labels hidden, tiles highlighted. */
  function Hidden(g: Session): Game
    requires g.status == Playing
  {
    g.(firstClicked := true, cells := UpdateView(g.cells, g.grid, g.buttonStyle, false, g.highlightTiles))
  }

  /** The style a button has once the reveal phase ends, before any click
      has repainted it: `button_style` on the numbered tiles when
      `highlight_tiles` is set, the initial gray otherwise. */
  function PristineStyle(g: Game, i: nat): Style
    requires i < |g.grid|
  {
    if g.highlightTiles && g.grid[i] != 0 then g.buttonStyle else Gray
  }

  /** Hiding the labels of an untouched board: every button keeps its value
      and enabled flag, loses its label, and the numbered tiles take the base
      style when highlighting is on. Stated of `Hidden`, the step the end of
      the sleep shares; `FirstClickHideCells` carries it over to a click. */
  lemma HiddenPristine(g: Session)
    requires !g.firstClicked
    ensures forall i :: 0 <= i < Cells ==>
              Hidden(g).cells[i] == Cell(g.grid[i], Blank, PristineStyle(g, i), g.grid[i] == 0)
  {
    forall i | 0 <= i < Cells
      ensures Hidden(g).cells[i] == Cell(g.grid[i], Blank, PristineStyle(g, i), g.grid[i] == 0)
    {
      assert g.cells[i] == InitialCells(g.grid)[i];
    }
  }

  /** Hiding the labels of any running board: each button loses its label;
      with `highlight_tiles`, a numbered button that is not green takes the
      base style; nothing else changes. */
  lemma HiddenCells(g: Session)
    requires g.status == Playing
    ensures Hidden(g).firstClicked && SameBoard(Hidden(g), g)
    ensures forall i :: 0 <= i < Cells ==>
              var c := g.cells[i];
              Hidden(g).cells[i] ==
                c.(text := Blank,
                   style := if g.highlightTiles && g.grid[i] != 0 && c.style != Green then g.buttonStyle else c.style)
  {
    forall i | 0 <= i < Cells
      ensures Hidden(g).cells[i] ==
                g.cells[i].(text := Blank,
                            style := if g.highlightTiles && g.grid[i] != 0 && g.cells[i].style != Green
                                     then g.buttonStyle else g.cells[i].style)
    {
      assert Hidden(g).cells[i] == UpdateCell(g.cells[i], g.grid[i], g.buttonStyle, false, g.highlightTiles);
    }
  }

  lemma HiddenInv(g: Session)
    requires g.status == Playing
    ensures Inv(Hidden(g))
  {
    var r := Hidden(g);
    forall i | 0 <= i < Cells
      ensures CellOk(r, i)
    {
      assert CellOk(g, i);
    }
  }

  /** The one-time switch to hidden labels done on the first click. */
  function FirstClickHide(g: Session): (h: Session)
    ensures h.firstClicked
    ensures SameBoard(h, g)
    ensures h.step == g.step && h.lives == g.lives && h.wrongGuesses == g.wrongGuesses && h.status == g.status
    ensures g.firstClicked ==> h.cells == g.cells
    ensures !g.firstClicked ==> h.cells == UpdateView(g.cells, g.grid, g.buttonStyle, false, g.highlightTiles)
  {
    if g.firstClicked then g
    else
      HiddenInv(g);
      Hidden(g)
  }

  /** The first click on an untouched board repaints it before it is judged:
      every label is hidden and, with `highlight_tiles`, every numbered tile
      takes `button_style`; values and enabled flags stay. `HiddenPristine`
      seen through `FirstClickHide`, kept out of that function's contract so
      that unfolding a click stays cheap. */
  lemma FirstClickHideCells(g: Session)
    requires !g.firstClicked
    ensures forall i :: 0 <= i < Cells ==>
              FirstClickHide(g).cells[i] == Cell(g.grid[i], Blank, PristineStyle(g, i), g.grid[i] == 0)
  {
    HiddenPristine(g);
  }

  /** The buttons after a correct click on `idx`: that button is green and
      labelled, then every listed wrong guess takes the base style. */
  function HitCells(cells: seq<Cell>, idx: nat, wrong: seq<nat>, style: Style): (r: seq<Cell>)
    requires idx < |cells|
    ensures |r| == |cells|
    ensures forall i {:trigger r[i]} :: 0 <= i < |cells| ==>
              && r[i].value == cells[i].value
              && r[i].disabled == cells[i].disabled
              && r[i].text == (if i == idx then Number(cells[i].value) else cells[i].text)
              && r[i].style == (if i in wrong then style else if i == idx then Green else cells[i].style)
  {
    var lit := cells[idx := cells[idx].(text := Number(cells[idx].value), style := Green)];
    Restyle(lit, wrong, style)
  }

  /** The state after a correct click on `idx`. */
  function HitState(h: Session, idx: nat): Game
    requires h.firstClicked && Clickable(h, idx) && idx == h.coordinates[h.step]
  {
    var cells := HitCells(h.cells, idx, h.wrongGuesses, h.buttonStyle);
    var step := h.step + 1;
    if step == |h.coordinates| then h.(step := step, cells := DisableAll(cells), status := Won)
    else h.(step := step, cells := cells)
  }

  lemma HitStateInv(h: Session, idx: nat)
    requires h.firstClicked && Clickable(h, idx) && idx == h.coordinates[h.step]
    ensures Inv(HitState(h, idx))
  {
    var r := HitState(h, idx);
    assert h.grid[idx] == h.step + 1;
    forall i | 0 <= i < Cells
      ensures CellOk(r, i)
    {
      assert CellOk(h, i);
    }
  }

  /** The bookkeeping of a correct click. */
  lemma HitStateCounts(h: Session, idx: nat)
    requires h.firstClicked && Clickable(h, idx) && idx == h.coordinates[h.step]
    ensures var r := HitState(h, idx);
            && SameBoard(r, h) && r.firstClicked
            && r.step == h.step + 1 && r.lives == h.lives && r.wrongGuesses == h.wrongGuesses
            && (r.status == Won <==> r.step == h.count)
            && (r.status == Playing <==> r.step < h.count)
  {
  }

  /** The buttons after a correct click. */
  lemma HitStateCells(h: Session, idx: nat)
    requires h.firstClicked && Clickable(h, idx) && idx == h.coordinates[h.step]
    ensures var r := HitState(h, idx);
            && r.cells[idx].text == Number(h.grid[idx])
            && (forall k :: 0 <= k < |h.wrongGuesses| ==> r.cells[h.wrongGuesses[k]].style == h.buttonStyle)
            && (idx !in h.wrongGuesses ==> r.cells[idx].style == Green)
  {
    assert CellOk(h, idx);
    assert WrongGuessesOk(h);
  }

  /** A click on the next target: it turns green and shows its number, every
      listed wrong guess is repainted in the base style (the list is kept), and
      the game is won once the last target is reached. */
  function Hit(h: Session, idx: nat): (r: (Session, Outcome))
    requires h.firstClicked && Clickable(h, idx) && idx == h.coordinates[h.step]
    ensures SameBoard(r.0, h) && r.0.firstClicked
    ensures r.0.step == h.step + 1 && r.0.lives == h.lives && r.0.wrongGuesses == h.wrongGuesses
    ensures r.1 == CorrectAndWon <==> r.0.step == h.count
    ensures r.1 == Correct <==> r.0.step < h.count
    ensures r.0.status == (if r.1 == CorrectAndWon then Won else Playing)
    ensures r.0.cells[idx].text == Number(h.grid[idx])
    ensures forall k :: 0 <= k < |h.wrongGuesses| ==> r.0.cells[h.wrongGuesses[k]].style == h.buttonStyle
    ensures idx !in h.wrongGuesses ==> r.0.cells[idx].style == Green
  {
    HitStateInv(h, idx);
    HitStateCounts(h, idx);
    HitStateCells(h, idx);
    var g := HitState(h, idx);
    (g, if g.status == Won then CorrectAndWon else Correct)
  }

  /** The buttons after the losing click on `idx`: `update_view` with every
      label shown and highlighting on, every button disabled, `idx` red. */
  function LossCells(cells: seq<Cell>, grid: seq<nat>, style: Style, idx: nat): (r: seq<Cell>)
    requires |grid| == |cells| && idx < |cells|
    ensures |r| == |cells|
    ensures forall i {:trigger r[i]} :: 0 <= i < |cells| ==>
              && r[i].value == cells[i].value
              && r[i].disabled
              && r[i].text == LabelOf(cells[i].value)
              && r[i].style == (if i == idx then Red
                                else if grid[i] != 0 && cells[i].style != Green then style
                                else cells[i].style)
  {
    var shown := DisableAll(UpdateView(cells, grid, style, true, true));
    shown[idx := shown[idx].(style := Red)]
  }

  /** The state after a wrong click on `idx`. */
  function MissState(h: Session, idx: nat): Game
    requires h.firstClicked && Clickable(h, idx) && idx != h.coordinates[h.step]
  {
    var lives := h.lives - 1;
    if lives == 0 then
      h.(lives := lives, cells := LossCells(h.cells, h.grid, h.buttonStyle, idx), status := Lost)
    else
      h.(lives := lives, cells := h.cells[idx := h.cells[idx].(style := Red)],
         wrongGuesses := h.wrongGuesses + [idx])
  }

  lemma MissStateInv(h: Session, idx: nat)
    requires h.firstClicked && Clickable(h, idx) && idx != h.coordinates[h.step]
    ensures Inv(MissState(h, idx))
  {
    var r := MissState(h, idx);
    assert CellOk(h, idx);
    if h.lives - 1 != 0 {
      assert r.wrongGuesses == h.wrongGuesses + [idx];
      assert WrongGuessesOk(r) by {
        forall k | 0 <= k < |r.wrongGuesses|
          ensures r.wrongGuesses[k] < Cells && r.grid[r.wrongGuesses[k]] != 0
        {
          if k < |h.wrongGuesses| {
            assert r.wrongGuesses[k] == h.wrongGuesses[k];
          }
        }
      }
    }
    forall i | 0 <= i < Cells
      ensures CellOk(r, i)
    {
      assert CellOk(h, i);
    }
  }

  /** The bookkeeping of a wrong click. */
  lemma MissStateCounts(h: Session, idx: nat)
    requires h.firstClicked && Clickable(h, idx) && idx != h.coordinates[h.step]
    ensures var r := MissState(h, idx);
            && SameBoard(r, h) && r.firstClicked
            && r.lives == h.lives - 1 && r.step == h.step
            && (r.status == Lost <==> r.lives == 0)
            && (r.status == Playing <==> r.lives != 0)
            && r.cells[idx].style == Red
            && r.wrongGuesses == (if r.status == Playing then h.wrongGuesses + [idx] else h.wrongGuesses)
  {
    assert CellOk(h, idx);
  }

  /** The buttons after a wrong click: only the clicked one changes, turning
      red, unless the click loses, which reveals and disables the board.
      Stated of `MissState`, keyed on the status; `MissFrame` restates it for
      `Miss`, keyed on the outcome a caller sees. */
  lemma MissStateCells(h: Session, idx: nat)
    requires h.firstClicked && Clickable(h, idx) && idx != h.coordinates[h.step]
    ensures var r := MissState(h, idx);
            && (r.status == Playing ==> forall i :: 0 <= i < Cells ==>
                  r.cells[i] == (if i == idx then h.cells[i].(style := Red) else h.cells[i]))
            && (r.status == Lost ==> r.cells == LossCells(h.cells, h.grid, h.buttonStyle, idx))
  {
  }

  /** A click on any other enabled button costs a life and paints it red. At
      zero lives the game is lost: every label is revealed and every button
      disabled; otherwise the button joins the wrong guesses. */
  function Miss(h: Session, idx: nat): (r: (Session, Outcome))
    requires h.firstClicked && Clickable(h, idx) && idx != h.coordinates[h.step]
    ensures SameBoard(r.0, h) && r.0.firstClicked
    ensures r.0.lives == h.lives - 1 && r.0.step == h.step
    ensures r.1 == IncorrectAndLost <==> r.0.lives == 0
    ensures r.1 == Incorrect <==> r.0.lives != 0
    ensures r.0.status == (if r.1 == IncorrectAndLost then Lost else Playing)
    ensures r.0.cells[idx].style == Red
    ensures r.0.wrongGuesses == (if r.1 == Incorrect then h.wrongGuesses + [idx] else h.wrongGuesses)
  {
    MissStateInv(h, idx);
    MissStateCounts(h, idx);
    var g := MissState(h, idx);
    (g, if g.status == Lost then IncorrectAndLost else Incorrect)
  }

  /** All the buttons after a correct click: the clicked one and the listed
      wrong guesses as `HitCells` leaves them, every other button as it was,
      and all of them disabled when the click wins. */
  lemma HitFrame(h: Session, idx: nat)
    requires h.firstClicked && Clickable(h, idx) && idx == h.coordinates[h.step]
    ensures var r := Hit(h, idx);
            var lit := HitCells(h.cells, idx, h.wrongGuesses, h.buttonStyle);
            r.0.cells == if r.1 == CorrectAndWon then DisableAll(lit) else lit
  {
  }

  /** All the buttons after a wrong click: only the clicked one changes, to
      red, unless the click loses the game and reveals the board. The
      outcome-keyed form of `MissStateCells`. */
  lemma MissFrame(h: Session, idx: nat)
    requires h.firstClicked && Clickable(h, idx) && idx != h.coordinates[h.step]
    ensures var r := Miss(h, idx);
            && (r.1 == Incorrect ==> forall i :: 0 <= i < Cells ==>
                  r.0.cells[i] == (if i == idx then h.cells[i].(style := Red) else h.cells[i]))
            && (r.1 == IncorrectAndLost ==> r.0.cells == LossCells(h.cells, h.grid, h.buttonStyle, idx))
  {
    MissStateCells(h, idx);
  }

  /** The button at `idx` is clicked: the first click hides the labels, then
      the click is judged against the next target `coordinates[step]`. */
  function Click(g: Session, idx: nat): (r: (Session, Outcome))
    requires Clickable(g, idx)
    ensures r.0.firstClicked
    ensures SameBoard(r.0, g)
    ensures idx == g.coordinates[g.step] ==>
              && r.0.step == g.step + 1
              && r.0.lives == g.lives
              && r.0.wrongGuesses == g.wrongGuesses
              && (r.1 == CorrectAndWon <==> r.0.step == g.count)
              && (r.1 == Correct <==> r.0.step < g.count)
    ensures idx != g.coordinates[g.step] ==>
              && r.0.step == g.step
              && r.0.lives == g.lives - 1
              && (r.1 == IncorrectAndLost <==> r.0.lives == 0)
              && (r.1 == Incorrect <==> r.0.lives != 0)
              && r.0.cells[idx].style == Red
              && r.0.wrongGuesses == (if r.1 == Incorrect then g.wrongGuesses + [idx] else g.wrongGuesses)
    ensures r.0.status == Won <==> r.1 == CorrectAndWon
    ensures r.0.status == Lost <==> r.1 == IncorrectAndLost
  {
    var h := FirstClickHide(g);
    if idx == h.coordinates[h.step] then Hit(h, idx) else Miss(h, idx)
  }

  /** The optional initial sleep of `start` ends: the reveal phase is over and,
      if the view still runs, labels are hidden and tiles highlighted. */
  function SleepExpired(g: Session): (r: Session)
    ensures r.firstClicked
    ensures SameBoard(r, g)
    ensures r.step == g.step && r.lives == g.lives && r.wrongGuesses == g.wrongGuesses && r.status == g.status
    ensures g.status != Playing ==> r.cells == g.cells
    ensures g.status == Playing ==> r.cells == UpdateView(g.cells, g.grid, g.buttonStyle, false, g.highlightTiles)
    ensures g.status == Playing ==> forall i :: 0 <= i < Cells ==> r.cells[i].text == Blank
    ensures !g.firstClicked ==> forall i {:trigger r.cells[i]} :: 0 <= i < Cells ==>
              r.cells[i] == Cell(g.grid[i], Blank, PristineStyle(g, i), g.grid[i] == 0)
  {
    if g.status == Playing then
      HiddenInv(g);
      if !g.firstClicked then HiddenPristine(g); Hidden(g) else Hidden(g)
    else
      g.(firstClicked := true)
  }
}

=== FILE: chimp_grid.dfy ===
/** Placement of the numbered targets of the chimp test on its 5x5 board
    (chimp_test.py, `ChimpTest.__init__`).

    The source draws cell indices from the process-wide random generator and
    redraws while the drawn cell is occupied. Here the draws are an explicit,
    finite stream; running out of it is the model's only extra failure. */
module ChimpGrid {
  import opened Results

  /** Number of cells of the board, addressed 0..24 row by row. */
  const Cells: nat := 25

  datatype GridError =
    | OutOfRange(count: int)   // the source raises ValueError
    | DrawsExhausted           // the injected draw stream ended

  /** `grid[j]` is 0 for an empty cell and `i + 1` for the cell of target `i`;
      `coordinates[i]` is the cell of target `i`. */
  datatype Placement = Placement(grid: seq<nat>, coordinates: seq<nat>)

  /** The board/coordinates invariant for `count` targets: every target sits on
      a cell of the board that carries its number, and every non-empty cell is
      the cell of the target whose number it carries. */
  predicate ValidPlacement(p: Placement, count: nat) {
    && |p.grid| == Cells
    && |p.coordinates| == count
    && (forall i :: 0 <= i < count ==> p.coordinates[i] < Cells && p.grid[p.coordinates[i]] == i + 1)
    && (forall j :: 0 <= j < Cells && p.grid[j] != 0 ==>
          1 <= p.grid[j] <= count && p.coordinates[p.grid[j] - 1] == j)
  }

  /** Every draw names a cell of the board (`random.randrange(25)`). */
  predicate ValidDraws(draws: seq<nat>) {
    forall k :: 0 <= k < |draws| ==> draws[k] < Cells
  }

  /** The first `count` draws exist and name pairwise different cells. */
  predicate FirstDrawsDistinct(draws: seq<nat>, count: nat) {
    && count <= |draws|
    && forall a, b :: 0 <= a < b < count ==> draws[a] != draws[b]
  }

  /** `acc` followed by the cells of `rest` that are neither in `acc` nor
      earlier in `rest`, each once, in the order of their first draw. */
  function FirstDistinctFrom(rest: seq<nat>, acc: seq<nat>): (d: seq<nat>)
    ensures |acc| <= |d| <= |acc| + |rest|
    decreases |rest|
  {
    if rest == [] then acc
    else FirstDistinctFrom(rest[1..], if rest[0] in acc then acc else acc + [rest[0]])
  }

  /** Reading more draws only appends to what is kept. */
  lemma {:induction false} FirstDistinctFromExtends(rest: seq<nat>, acc: seq<nat>)
    ensures acc <= FirstDistinctFrom(rest, acc)
    decreases |rest|
  {
    if rest != [] {
      FirstDistinctFromExtends(rest[1..], if rest[0] in acc then acc else acc + [rest[0]]);
    }
  }

  /** The draws with every repeat removed: each drawn cell once, in the order
      of its first draw. */
  function FirstDistinct(draws: seq<nat>): (d: seq<nat>)
    ensures |d| <= |draws|
  {
    FirstDistinctFrom(draws, [])
  }

  /** A cell is kept exactly when it was drawn or already kept. */
  lemma {:induction false} FirstDistinctFromMembers(rest: seq<nat>, acc: seq<nat>)
    ensures forall x :: x in FirstDistinctFrom(rest, acc) <==> x in acc || x in rest
    decreases |rest|
  {
    if rest != [] {
      var next := if rest[0] in acc then acc else acc + [rest[0]];
      FirstDistinctFromMembers(rest[1..], next);
      assert rest == [rest[0]] + rest[1..];
    }
  }

  /** A cell is among the first occurrences exactly when it was drawn. */
  lemma FirstDistinctMembers(draws: seq<nat>)
    ensures forall x :: x in FirstDistinct(draws) <==> x in draws
  {
    FirstDistinctFromMembers(draws, []);
  }

  /** The first draw is the first occurrence. */
  lemma FirstDistinctHead(draws: seq<nat>)
    requires |draws| > 0
    ensures |FirstDistinct(draws)| > 0 && FirstDistinct(draws)[0] == draws[0]
  {
    assert [] + [draws[0]] == [draws[0]];
    assert FirstDistinct(draws) == FirstDistinctFrom(draws[1..], [draws[0]]);
    FirstDistinctFromExtends(draws[1..], [draws[0]]);
  }

  /** While the draws repeat nothing, they are their own first occurrences. */
  lemma {:induction false} FirstDistinctOfDistinctFrom(draws: seq<nat>, k: nat, n: nat)
    requires FirstDrawsDistinct(draws, n) && k <= n
    ensures draws[..n] <= FirstDistinctFrom(draws[k..], draws[..k])
    decreases n - k
  {
    if k < n {
      assert draws[k] !in draws[..k];
      assert draws[k..][1..] == draws[k + 1..];
      assert draws[..k] + [draws[k]] == draws[..k + 1];
      FirstDistinctOfDistinctFrom(draws, k + 1, n);
    } else {
      FirstDistinctFromExtends(draws[k..], draws[..k]);
    }
  }

  /** The first `n` draws, when pairwise different, are the first `n`
      first occurrences. */
  lemma FirstDistinctOfDistinct(draws: seq<nat>, n: nat)
    requires FirstDrawsDistinct(draws, n)
    ensures n <= |FirstDistinct(draws)| && FirstDistinct(draws)[..n] == draws[..n]
  {
    FirstDistinctOfDistinctFrom(draws, 0, n);
    assert draws[0..] == draws && draws[..0] == [];
  }

  /** Rejection-sampling placement of targets 1..count: target `i` goes to
      the first drawn cell not yet taken, so the targets sit on the first
      `count` distinct cells of the stream, in draw order. */
  method Generate(count: int, draws: seq<nat>) returns (r: Result<Placement, GridError>)
    requires ValidDraws(draws)
    ensures (r.Failure? && r.error.OutOfRange?) <==> !(1 <= count <= Cells)
    ensures r.Success? <==> 1 <= count <= Cells && count <= |FirstDistinct(draws)|
    ensures r.Success? ==> r.value.coordinates == FirstDistinct(draws)[..count]
    ensures r.Success? ==> ValidPlacement(r.value, count)
    ensures r.Success? ==> forall a, b :: 0 <= a < b < count ==> r.value.coordinates[a] != r.value.coordinates[b]
    ensures r.Success? ==> forall j :: 0 <= j < Cells && j !in r.value.coordinates ==> r.value.grid[j] == 0
    ensures r.Success? ==> |draws| > 0 && r.value.coordinates[0] == draws[0]
    ensures r.Success? ==> forall i :: 0 <= i < count ==> r.value.coordinates[i] in draws
    ensures 1 <= count <= Cells && FirstDrawsDistinct(draws, count) ==>
              r.Success? && r.value.coordinates == draws[..count]
  {
    if !(1 <= count <= Cells) {
      return Failure(OutOfRange(count));
    }
    if FirstDrawsDistinct(draws, count) {
      FirstDistinctOfDistinct(draws, count);
    }
    var grid: seq<nat> := seq(Cells, _ => 0);
    var coordinates: seq<nat> := [];
    var pos: nat := 0;
    var i := 0;
    while i < count
      invariant 0 <= i <= count && pos <= |draws|
      invariant ValidPlacement(Placement(grid, coordinates), i)
      invariant FirstDistinctFrom(draws[pos..], coordinates) == FirstDistinct(draws)
    {
      var found, j, next := NextFree(draws, pos, grid);
      if !found {
        Exhausted(draws, pos, grid, coordinates);
        return Failure(DrawsExhausted);
      }
      Advance(draws, pos, next, grid, coordinates);
      PlaceStep(grid, coordinates, j);
      pos := next;
      coordinates := coordinates + [j];
      grid := grid[j := i + 1];
      i := i + 1;
    }
    FirstDistinctFromExtends(draws[pos..], coordinates);
    Completed(draws, Placement(grid, coordinates), count);
    return Success(Placement(grid, coordinates));
  }

  /** What a finished placement says, once its targets are the first
      `count` distinct draws. */
  lemma Completed(draws: seq<nat>, p: Placement, count: nat)
    requires 1 <= count <= |FirstDistinct(draws)|
    requires ValidPlacement(p, count) && p.coordinates <= FirstDistinct(draws)
    ensures p.coordinates == FirstDistinct(draws)[..count]
    ensures forall a, b :: 0 <= a < b < count ==> p.coordinates[a] != p.coordinates[b]
    ensures forall j :: 0 <= j < Cells && j !in p.coordinates ==> p.grid[j] == 0
    ensures |draws| > 0 && p.coordinates[0] == draws[0]
    ensures forall i :: 0 <= i < count ==> p.coordinates[i] in draws
  {
    PlacementTaken(p.grid, p.coordinates);
    PlacementDistinct(p.grid, p.coordinates);
    FirstDistinctFacts(draws, count);
  }

  /** In a valid placement a cell is non-empty exactly when it holds a target. */
  lemma PlacementTaken(grid: seq<nat>, coordinates: seq<nat>)
    requires ValidPlacement(Placement(grid, coordinates), |coordinates|)
    ensures forall c :: 0 <= c < Cells ==> (grid[c] != 0 <==> c in coordinates)
  {
    forall c | 0 <= c < Cells && c in coordinates
      ensures grid[c] != 0
    {
      var k :| 0 <= k < |coordinates| && coordinates[k] == c;
      assert grid[coordinates[k]] == k + 1;
    }
  }

  /** In a valid placement no two targets share a cell. */
  lemma PlacementDistinct(grid: seq<nat>, coordinates: seq<nat>)
    requires ValidPlacement(Placement(grid, coordinates), |coordinates|)
    ensures forall a, b :: 0 <= a < b < |coordinates| ==> coordinates[a] != coordinates[b]
  {
    forall a, b | 0 <= a < b < |coordinates|
      ensures coordinates[a] != coordinates[b]
    {
      assert grid[coordinates[a]] == a + 1 && grid[coordinates[b]] == b + 1;
    }
  }

  /** Putting the next target on an empty cell keeps the placement valid. */
  lemma PlaceStep(grid: seq<nat>, coordinates: seq<nat>, j: nat)
    requires ValidPlacement(Placement(grid, coordinates), |coordinates|)
    requires j < Cells && grid[j] == 0
    ensures ValidPlacement(Placement(grid[j := |coordinates| + 1], coordinates + [j]), |coordinates| + 1)
  {
    var g, cs := grid[j := |coordinates| + 1], coordinates + [j];
    forall k | 0 <= k < |cs|
      ensures cs[k] < Cells && g[cs[k]] == k + 1
    {
      if k < |coordinates| {
        assert cs[k] == coordinates[k];
        assert grid[coordinates[k]] == k + 1;
      }
    }
    forall c | 0 <= c < Cells && g[c] != 0
      ensures 1 <= g[c] <= |cs| && cs[g[c] - 1] == c
    {
      if c != j {
        assert cs[g[c] - 1] == coordinates[grid[c] - 1];
      }
    }
  }

  /** What the first `count` distinct draws say about the stream. */
  lemma FirstDistinctFacts(draws: seq<nat>, count: nat)
    requires 1 <= count <= |FirstDistinct(draws)|
    ensures |draws| > 0 && FirstDistinct(draws)[0] == draws[0]
    ensures forall i :: 0 <= i < count ==> FirstDistinct(draws)[i] in draws
  {
    FirstDistinctMembers(draws);
    FirstDistinctHead(draws);
  }

  /** One `random.randrange(25)` followed by redraws while the drawn cell is
      taken, reading the stream from `pos`: finds the first free cell drawn
      from there on (every draw before it names a taken cell), or reports
      that every remaining draw names a taken cell. */
  method NextFree(draws: seq<nat>, pos: nat, grid: seq<nat>) returns (found: bool, j: nat, next: nat)
    requires ValidDraws(draws) && pos <= |draws| && |grid| == Cells
    ensures pos <= next <= |draws|
    ensures found ==> pos < next && j == draws[next - 1] && grid[j] == 0
    ensures found ==> forall k :: pos <= k < next - 1 ==> grid[draws[k]] != 0
    ensures !found ==> forall k :: pos <= k < |draws| ==> grid[draws[k]] != 0
  {
    if pos == |draws| {
      return false, 0, pos;
    }
    j := draws[pos];
    next := pos + 1;
    while grid[j] != 0
      invariant pos < next <= |draws| && j == draws[next - 1]
      invariant forall k :: pos <= k < next - 1 ==> grid[draws[k]] != 0
      decreases |draws| - next
    {
      if next == |draws| {
        return false, 0, next;
      }
      j := draws[next];
      next := next + 1;
    }
    found := true;
  }

  /** Draws that name kept cells add nothing. */
  lemma {:induction false} SkipTaken(draws: seq<nat>, from: nat, to: nat, acc: seq<nat>)
    requires from <= to <= |draws|
    requires forall k :: from <= k < to ==> draws[k] in acc
    ensures FirstDistinctFrom(draws[from..], acc) == FirstDistinctFrom(draws[to..], acc)
    decreases |draws[from..to]|
  {
    if from < to {
      DrawStep(draws, from, acc);
      SkipTaken(draws, from + 1, to, acc);
    }
  }

  /** A redraw loop that ends on a free cell has read exactly one first
      occurrence: that cell. */
  lemma {:induction false} Advance(draws: seq<nat>, pos: nat, next: nat, grid: seq<nat>, coordinates: seq<nat>)
    requires ValidDraws(draws) && pos < next <= |draws|
    requires ValidPlacement(Placement(grid, coordinates), |coordinates|)
    requires grid[draws[next - 1]] == 0
    requires forall k :: pos <= k < next - 1 ==> grid[draws[k]] != 0
    ensures FirstDistinctFrom(draws[next..], coordinates + [draws[next - 1]]) == FirstDistinctFrom(draws[pos..], coordinates)
  {
    PlacementTaken(grid, coordinates);
    forall k | pos <= k < next - 1
      ensures draws[k] in coordinates
    {
      assert grid[draws[k]] != 0;
    }
    assert draws[next - 1] !in coordinates;
    SkipTaken(draws, pos, next - 1, coordinates);
    DrawStep(draws, next - 1, coordinates);
  }

  /** A redraw loop that runs out of draws has read no first occurrence. */
  lemma {:induction false} Exhausted(draws: seq<nat>, pos: nat, grid: seq<nat>, coordinates: seq<nat>)
    requires ValidDraws(draws) && pos <= |draws|
    requires ValidPlacement(Placement(grid, coordinates), |coordinates|)
    requires forall k :: pos <= k < |draws| ==> grid[draws[k]] != 0
    ensures FirstDistinctFrom(draws[pos..], coordinates) == coordinates
  {
    PlacementTaken(grid, coordinates);
    forall k | pos <= k < |draws|
      ensures draws[k] in coordinates
    {
      assert grid[draws[k]] != 0;
    }
    SkipTaken(draws, pos, |draws|, coordinates);
    assert draws[|draws|..] == [];
  }

  /** One draw read from the stream: a cell already kept is skipped, a new
      one is kept. */
  lemma {:induction false} DrawStep(draws: seq<nat>, k: nat, acc: seq<nat>)
    requires k < |draws|
    ensures draws[k] in acc ==> FirstDistinctFrom(draws[k..], acc) == FirstDistinctFrom(draws[k + 1..], acc)
    ensures draws[k] !in acc ==> FirstDistinctFrom(draws[k..], acc) == FirstDistinctFrom(draws[k + 1..], acc + [draws[k]])
  {
    assert draws[k..][1..] == draws[k + 1..];
  }
}

=== FILE: chimp_play.dfy ===
/** Sequences of clicks on a chimp test session, and the properties of whole
    plays: perfect play wins, `lives` misses in a row lose, and the quirks of
    the click handler that show up only across several clicks. */
module ChimpPlay {
  import opened ChimpGrid
  import opened ChimpView
  import opened ChimpGame

  /** Delivers `clicks` one at a time. A click the surface cannot deliver (a
      disabled button, or any button once the view has stopped) is dropped.
      Returns the final state and the outcomes of the delivered clicks. */
  function Replay(g: Session, clicks: seq<nat>): (r: (Session, seq<Outcome>))
    ensures SameBoard(r.0, g)
    ensures |r.1| <= |clicks|
    ensures g.step <= r.0.step && r.0.lives <= g.lives
    ensures g.firstClicked ==> r.0.firstClicked
    ensures g.status != Playing ==> r.1 == [] && r.0.step == g.step && r.0.lives == g.lives
    decreases |clicks|
  {
    if clicks == [] then (g, [])
    else if Clickable(g, clicks[0]) then
      var (h, o) := Click(g, clicks[0]);
      var (f, os) := Replay(h, clicks[1..]);
      (f, [o] + os)
    else Replay(g, clicks[1..])
  }

  /** `n` copies of outcome `o`. */
  function Repeat(o: Outcome, n: nat): (os: seq<Outcome>)
    ensures |os| == n
    ensures forall k :: 0 <= k < n ==> os[k] == o
  {
    if n == 0 then [] else [o] + Repeat(o, n - 1)
  }

  /** Prepending one more copy of `o` to a run of `o`s lengthens the run. */
  lemma RepeatCons(o: Outcome, n: nat, tail: seq<Outcome>)
    ensures [o] + (Repeat(o, n) + tail) == Repeat(o, n + 1) + tail
  {
    assert Repeat(o, n + 1) == [o] + Repeat(o, n);
  }

  /** Unfolds one delivered click of `Replay`. */
  lemma {:induction false} ReplayDelivered(g: Session, clicks: seq<nat>)
    requires |clicks| > 0 && Clickable(g, clicks[0])
    ensures var c := Click(g, clicks[0]);
            var rest := Replay(c.0, clicks[1..]);
            Replay(g, clicks) == (rest.0, [c.1] + rest.1)
  {
  }

  /** One click on the next target: it is delivered, counts as a hit, and
      the rest of the in-order play continues from the resulting state. It
      names the `Click` that delivers it, for lemmas about single buttons. */
  lemma HitStep(g: Session, clicks: seq<nat>) returns (h: Session, o: Outcome)
    requires g.status == Playing && clicks == g.coordinates[g.step..]
    ensures |clicks| == g.count - g.step > 0
    ensures Clickable(g, clicks[0]) && (h, o) == Click(g, clicks[0])
    ensures SameBoard(h, g) && h.step == g.step + 1 && h.lives == g.lives
    ensures o == Correct <==> h.status == Playing
    ensures o == CorrectAndWon <==> h.status == Won
    ensures h.status == Won <==> |clicks| == 1
    ensures h.status != Lost
    ensures clicks[1..] == h.coordinates[h.step..]
    ensures var rest := Replay(h, clicks[1..]);
            Replay(g, clicks) == (rest.0, [o] + rest.1)
  {
    var idx := clicks[0];
    assert g.grid[idx] == g.step + 1;
    assert CellOk(g, idx);
    var c := Click(g, idx);
    h, o := c.0, c.1;
    ReplayDelivered(g, clicks);
  }

  /** `HitStep` seen from `Replay` alone: how one in-order click shapes the
      rest of the play. The inductions over whole plays use this form, which
      never mentions `Click`, so that they do not unfold a click's body. */
  lemma HitReplay(g: Session, clicks: seq<nat>) returns (h: Session, o: Outcome)
    requires g.status == Playing && clicks == g.coordinates[g.step..]
    ensures |clicks| == g.count - g.step > 0
    ensures SameBoard(h, g) && h.step == g.step + 1 && h.lives == g.lives
    ensures o == Correct <==> h.status == Playing
    ensures o == CorrectAndWon <==> h.status == Won
    ensures h.status == Won <==> |clicks| == 1
    ensures clicks[1..] == h.coordinates[h.step..]
    ensures h.status != Lost
    ensures var rest := Replay(h, clicks[1..]);
            Replay(g, clicks) == (rest.0, [o] + rest.1)
    ensures h.status == Won ==> Replay(g, clicks) == (h, [o])
  {
    h, o := HitStep(g, clicks);
    if h.status == Won {
      assert clicks[1..] == [];
      assert Replay(h, clicks[1..]) == (h, []);
      assert [o] + [] == [o];
    }
  }

  /** Clicking the remaining targets in order, with no mistake, wins the game
      and loses no life on the way. */
  lemma {:induction false} InOrderClicksWin(g: Session)
    requires g.status == Playing
    ensures var r := Replay(g, g.coordinates[g.step..]);
            r.0.status == Won && r.0.step == g.count && r.0.lives == g.lives
    decreases g.count - g.step
  {
    var h, o := HitReplay(g, g.coordinates[g.step..]);
    if h.status == Playing {
      InOrderClicksWin(h);
    }
  }

  /** `n - 1` copies of `o` followed by `last`, built front to back. */
  function Run(o: Outcome, last: Outcome, n: nat): (os: seq<Outcome>)
    requires n >= 1
    ensures |os| == n
  {
    if n == 1 then [last] else [o] + Run(o, last, n - 1)
  }

  /** `Run` is a run of `Repeat` closed by `last`. */
  lemma {:induction false} RunIsRepeat(o: Outcome, last: Outcome, n: nat)
    requires n >= 1
    ensures Run(o, last, n) == Repeat(o, n - 1) + [last]
    decreases n
  {
    if n > 1 {
      RunIsRepeat(o, last, n - 1);
      RepeatCons(o, n - 2, [last]);
    }
  }

  /** The in-order play's outcomes, as a `Run`. */
  lemma {:induction false} InOrderRun(g: Session)
    requires g.status == Playing
    ensures Replay(g, g.coordinates[g.step..]).1 == Run(Correct, CorrectAndWon, g.count - g.step)
    decreases g.count - g.step
  {
    var h, o := HitReplay(g, g.coordinates[g.step..]);
    if h.status == Playing {
      InOrderRun(h);
    }
  }

  /** The outcomes of that in-order play: `Correct` for every target but the
      last, `CorrectAndWon` for the last. */
  lemma {:induction false} InOrderOutcomes(g: Session)
    requires g.status == Playing
    ensures Replay(g, g.coordinates[g.step..]).1 == Repeat(Correct, g.count - g.step - 1) + [CorrectAndWon]
  {
    InOrderRun(g);
    RunIsRepeat(Correct, CorrectAndWon, g.count - g.step);
  }

  /** One click on a non-empty cell that is not the next target: it is
      delivered, counts as a miss, and the rest of the clicks continue from
      the resulting state. It names the `Click` that delivers it, for lemmas
      about single buttons. */
  lemma MissStep(g: Session, clicks: seq<nat>) returns (h: Session, o: Outcome)
    requires g.status == Playing && |clicks| > 0
    requires clicks[0] < Cells && g.grid[clicks[0]] != 0 && clicks[0] != g.coordinates[g.step]
    ensures Clickable(g, clicks[0]) && (h, o) == Click(g, clicks[0])
    ensures SameBoard(h, g) && h.step == g.step && h.lives == g.lives - 1
    ensures o == Incorrect <==> h.status == Playing
    ensures o == IncorrectAndLost <==> h.status == Lost
    ensures h.status != Won
    ensures var rest := Replay(h, clicks[1..]);
            Replay(g, clicks) == (rest.0, [o] + rest.1)
  {
    assert CellOk(g, clicks[0]);
    var c := Click(g, clicks[0]);
    h, o := c.0, c.1;
    ReplayDelivered(g, clicks);
  }

  /** Every click of `clicks` is on a non-empty cell of `grid` other than
      `target`. */
  predicate WrongClicks(grid: seq<nat>, target: nat, clicks: seq<nat>)
    decreases |clicks|
  {
    clicks == [] ||
    (clicks[0] < Cells && clicks[0] < |grid| && grid[clicks[0]] != 0 && clicks[0] != target
     && WrongClicks(grid, target, clicks[1..]))
  }

  /** `MissStep` seen from `Replay` alone, on a run of wrong clicks as long
      as the lives left; the form the inductions over whole plays use, as
      for `HitReplay`. */
  lemma MissReplay(g: Session, clicks: seq<nat>) returns (h: Session, o: Outcome)
    requires g.status == Playing && g.lives >= 1
    requires |clicks| == g.lives
    requires WrongClicks(g.grid, g.coordinates[g.step], clicks)
    ensures SameBoard(h, g) && h.step == g.step && h.lives == g.lives - 1
    ensures o == Incorrect <==> h.status == Playing
    ensures o == IncorrectAndLost <==> h.status == Lost
    ensures h.status == Lost <==> |clicks| == 1
    ensures h.status != Won
    ensures |clicks[1..]| == h.lives && WrongClicks(h.grid, h.coordinates[h.step], clicks[1..])
    ensures var rest := Replay(h, clicks[1..]);
            Replay(g, clicks) == (rest.0, [o] + rest.1)
    ensures h.status == Lost ==> Replay(g, clicks) == (h, [o])
  {
    h, o := MissStep(g, clicks);
    if h.status == Lost {
      assert clicks[1..] == [];
      assert Replay(h, clicks[1..]) == (h, []);
      assert [o] + [] == [o];
    }
  }

  /** `lives` clicks in a row on non-empty cells other than the next target
      lose the game on the last one; `step` never moves. */
  lemma {:induction false} MissesLose(g: Session, clicks: seq<nat>)
    requires g.status == Playing && g.lives >= 1
    requires |clicks| == g.lives
    requires WrongClicks(g.grid, g.coordinates[g.step], clicks)
    ensures var r := Replay(g, clicks);
            r.0.status == Lost && r.0.step == g.step && r.0.lives == 0
    decreases |clicks|
  {
    var h, o := MissReplay(g, clicks);
    if h.status == Playing {
      MissesLose(h, clicks[1..]);
    }
  }

  /** The losing play's outcomes, as a `Run`. */
  lemma {:induction false} MissesRun(g: Session, clicks: seq<nat>)
    requires g.status == Playing && g.lives >= 1
    requires |clicks| == g.lives
    requires WrongClicks(g.grid, g.coordinates[g.step], clicks)
    ensures Replay(g, clicks).1 == Run(Incorrect, IncorrectAndLost, |clicks|)
    decreases |clicks|
  {
    var h, o := MissReplay(g, clicks);
    if h.status == Playing {
      MissesRun(h, clicks[1..]);
    }
  }

  /** The outcomes of that losing play: `Incorrect` for every click but the
      last, `IncorrectAndLost` for the last. */
  lemma {:induction false} MissesOutcomes(g: Session, clicks: seq<nat>)
    requires g.status == Playing && g.lives >= 1
    requires |clicks| == g.lives
    requires WrongClicks(g.grid, g.coordinates[g.step], clicks)
    ensures Replay(g, clicks).1 == Repeat(Incorrect, |clicks| - 1) + [IncorrectAndLost]
  {
    MissesRun(g, clicks);
    RunIsRepeat(Incorrect, IncorrectAndLost, |clicks|);
  }

  /** Reaching the last target wins the game and disables every button. */
  lemma WinDisablesBoard(g: Session)
    requires g.status == Playing && g.step + 1 == g.count
    ensures Clickable(g, g.coordinates[g.step])
    ensures var r := Click(g, g.coordinates[g.step]);
            && r.1 == CorrectAndWon
            && forall i :: 0 <= i < Cells ==> r.0.cells[i].disabled
  {
    var h, o := HitStep(g, g.coordinates[g.step..]);
    forall i | 0 <= i < Cells
      ensures h.cells[i].disabled
    {
      assert CellOk(h, i);
    }
  }

  /** The click that uses up the last life reveals the whole board: every
      button shows its label (its number, blank on an empty cell) and none
      can be clicked. */
  lemma LossRevealsBoard(g: Session, idx: nat)
    requires Clickable(g, idx) && idx != g.coordinates[g.step] && g.lives == 1
    ensures var r := Click(g, idx);
            && r.1 == IncorrectAndLost
            && forall i :: 0 <= i < Cells ==> r.0.cells[i].disabled && r.0.cells[i].text == LabelOf(g.grid[i])
  {
    var h := FirstClickHide(g);
    assert Click(g, idx) == Miss(h, idx);
    assert Miss(h, idx).0 == MissState(h, idx);
    forall i | 0 <= i < Cells
      ensures h.cells[i].value == g.grid[i]
    {
      assert CellOk(h, i);
    }
  }

  /** A game started with no lives (`lives <= 0`) can never be lost: the
      handler only ends the game when the decremented count is exactly zero. */
  lemma {:induction false} NoLivesNeverLost(g: Session, clicks: seq<nat>)
    requires g.lives <= 0 && g.status != Lost
    ensures Replay(g, clicks).0.status != Lost
    decreases |clicks|
  {
    if clicks != [] {
      if Clickable(g, clicks[0]) {
        ReplayDelivered(g, clicks);
        NoLivesNeverLost(Click(g, clicks[0]).0, clicks[1..]);
      } else {
        NoLivesNeverLost(g, clicks[1..]);
      }
    }
  }

  /** A target already clicked correctly stays enabled, and clicking it again
      is judged against the next target, so it is a miss that costs a life. */
  lemma ReclickIsMiss(g: Session, k: nat)
    requires g.status == Playing && k < g.step
    ensures Clickable(g, g.coordinates[k])
    ensures var r := Click(g, g.coordinates[k]);
            r.0.lives == g.lives - 1 && r.0.step == g.step && r.1 in {Incorrect, IncorrectAndLost}
  {
    assert g.grid[g.coordinates[k]] == k + 1;
    assert g.grid[g.coordinates[g.step]] == g.step + 1;
    assert CellOk(g, g.coordinates[k]);
  }

  /** A target that was mis-clicked before its turn is still in the wrong
      guesses when it is finally clicked in order, and the reset loop then
      repaints it in the base style `button_style`: it is green only when that
      is the base style. */
  lemma EarlyMissedTargetTakesBaseStyle(g: Session)
    requires g.status == Playing && g.firstClicked
    requires g.coordinates[g.step] in g.wrongGuesses
    ensures var idx := g.coordinates[g.step];
            Clickable(g, idx) && Click(g, idx).0.cells[idx].style == g.buttonStyle
  {
    var idx := g.coordinates[g.step];
    assert g.grid[idx] == g.step + 1;
    assert CellOk(g, idx);
  }

  /** Once the view has stopped, no click can be delivered and a further
      stream of clicks changes nothing. */
  lemma {:induction false} StoppedGameIsFrozen(g: Session, clicks: seq<nat>)
    requires g.status != Playing
    ensures forall idx :: !Clickable(g, idx)
    ensures Replay(g, clicks) == (g, [])
    decreases |clicks|
  {
    if clicks != [] {
      StoppedGameIsFrozen(g, clicks[1..]);
    }
  }
}

=== FILE: chimp_view.dfy ===
/** The 25 buttons of the chimp test and the `update_view` directive
    (chimp_test.py, `ChimpButton`, `ChimpView`). Each button is a value record
    instead of a widget object. */
module ChimpView {

  /** Discord button colours: secondary (gray), primary (blurple), success
      (green), danger (red). The configurable base style is one of these. */
  datatype Style = Gray | Blurple | Green | Red

  /** A button label: the zero-width space of the source, or a target number. */
  datatype Label = Blank | Number(n: nat)

  /** One board button: the value it was built from (0 for an empty cell), its
      current label and style, and whether it can be clicked. */
  datatype Cell = Cell(value: nat, text: Label, style: Style, disabled: bool)

  /** `str(value or "\u200b")`: an empty cell's label is always blank. */
  function LabelOf(value: nat): (l: Label)
    ensures l.Blank? <==> value == 0
    ensures l.Number? ==> l.n == value
  {
    if value == 0 then Blank else Number(value)
  }

  /** The buttons as `ChimpView.__init__` builds them from the grid: gray,
      labelled with their number, and disabled exactly when empty. */
  function InitialCells(grid: seq<nat>): (cells: seq<Cell>)
    ensures |cells| == |grid|
    ensures forall i {:trigger cells[i]} :: 0 <= i < |grid| ==>
              && cells[i].value == grid[i]
              && cells[i].style == Gray
              && (cells[i].disabled <==> grid[i] == 0)
              && cells[i].text == LabelOf(grid[i])
  {
    seq(|grid|, i requires 0 <= i < |grid| => Cell(grid[i], LabelOf(grid[i]), Gray, grid[i] == 0))
  }

  function UpdateCell(c: Cell, num: nat, style: Style, show: bool, highlight: bool): Cell {
    var styled := if num != 0 && highlight && c.style != Green then style else c.style;
    c.(style := styled, text := if show then LabelOf(c.value) else Blank)
  }

  /** `update_view`: with `highlight`, repaints every non-empty cell that is not
      green in `style`; shows every label when `show`, hides every label
      otherwise. Values and enabled flags are untouched. */
  function UpdateView(cells: seq<Cell>, grid: seq<nat>, style: Style, show: bool, highlight: bool): (r: seq<Cell>)
    requires |grid| == |cells|
    ensures |r| == |cells|
    ensures forall i {:trigger r[i]} :: 0 <= i < |cells| ==> r[i].value == cells[i].value && r[i].disabled == cells[i].disabled
    ensures forall i {:trigger r[i]} :: 0 <= i < |cells| && (cells[i].style == Green || grid[i] == 0 || !highlight) ==>
              r[i].style == cells[i].style
    ensures forall i {:trigger r[i]} :: 0 <= i < |cells| && r[i].style != cells[i].style ==> r[i].style == style
    ensures highlight ==> forall i {:trigger r[i]} :: 0 <= i < |cells| && grid[i] != 0 ==> r[i].style in {style, Green}
    ensures forall i :: 0 <= i < |cells| ==> (r[i].text.Number? <==> show && cells[i].value != 0)
    ensures forall i :: 0 <= i < |cells| && r[i].text.Number? ==> r[i].text.n == cells[i].value
  {
    seq(|cells|, i requires 0 <= i < |cells| => UpdateCell(cells[i], grid[i], style, show, highlight))
  }

  /** `disable_all`: every button becomes unclickable, nothing else changes. */
  function DisableAll(cells: seq<Cell>): (r: seq<Cell>)
    ensures |r| == |cells|
    ensures forall i {:trigger r[i]} :: 0 <= i < |cells| ==> r[i].disabled && r[i] == cells[i].(disabled := true)
  {
    seq(|cells|, i requires 0 <= i < |cells| => cells[i].(disabled := true))
  }

  /** The reset loop over `wrong_guesses`: each listed button takes `style`. */
  function Restyle(cells: seq<Cell>, indices: seq<nat>, style: Style): (r: seq<Cell>)
    ensures |r| == |cells|
    ensures forall i {:trigger r[i]} :: 0 <= i < |cells| ==> r[i] == (if i in indices then cells[i].(style := style) else cells[i])
  {
    seq(|cells|, i requires 0 <= i < |cells| => if i in indices then cells[i].(style := style) else cells[i])
  }

  /** Applying `update_view` twice with the same arguments is the same as once. */
  lemma UpdateViewIdempotent(cells: seq<Cell>, grid: seq<nat>, style: Style, show: bool, highlight: bool)
    requires |grid| == |cells|
    ensures UpdateView(UpdateView(cells, grid, style, show, highlight), grid, style, show, highlight)
            == UpdateView(cells, grid, style, show, highlight)
  {
    var once := UpdateView(cells, grid, style, show, highlight);
    var twice := UpdateView(once, grid, style, show, highlight);
    forall i | 0 <= i < |cells|
      ensures twice[i] == once[i]
    {
      assert twice[i] == UpdateCell(once[i], grid[i], style, show, highlight);
    }
  }
}

=== FILE: number_memory.dfy ===
/** The number memory game (number_memory.py): a number of `level` digits is
    shown, then hidden; the player types it back. A right answer moves to the
    next level with a longer number and a longer display time, a wrong one
    ends the game, and input that is not a digit string is turned away.

    The digits `generate_number` draws from the random generator are passed
    in as indices; display times are whole numbers instead of floats. */
module NumberMemory {

  predicate IsDigit(c: char) {
    '0' <= c <= '9'
  }

  /** Entry `d` of `string.digits` ("0123456789"). */
  function DigitChar(d: nat): (c: char)
    requires d < 10
    ensures IsDigit(c)
  {
    ('0' as int + d) as char
  }

  /** `str.isdigit` over ASCII: at least one character, all of them digits. */
  predicate IsDigitString(s: string) {
    |s| > 0 && forall k :: 0 <= k < |s| ==> IsDigit(s[k])
  }

  /** A digit string is a non-empty string over '0'..'9', stated through
      membership rather than indices. */
  lemma DigitStringChars(s: string)
    ensures IsDigitString(s) <==> s != [] && forall c :: c in s ==> '0' <= c <= '9'
  {
    if s != [] && forall c :: c in s ==> '0' <= c <= '9' {
      forall k | 0 <= k < |s|
        ensures IsDigit(s[k])
      {
        assert s[k] in s;
      }
    }
  }

  /** How many digits follow the first one: `random.choices` with `k <= 0`
      draws nothing. */
  function TailLength(level: int): nat {
    if level >= 1 then level - 1 else 0
  }

  /** A number the game can show at `level`: digits only, the first one not
      zero, `level` of them (one when `level` is below one). */
  predicate IsGameNumber(s: string, level: int) {
    && |s| == TailLength(level) + 1
    && IsDigitString(s)
    && s[0] != '0'
  }

  /** Draws that `generate_number` can make at `level`: an index into the
      nine non-zero digits, then one index into the ten digits per further
      position. */
  predicate ValidDraws(level: int, first: nat, rest: seq<nat>) {
    && first < 9
    && |rest| == TailLength(level)
    && forall k :: 0 <= k < |rest| ==> rest[k] < 10
  }

  /** `generate_number`: the chosen entry of the non-zero digits
      "123456789", followed by the chosen entries of "0123456789". */
  function GenerateNumber(level: int, first: nat, rest: seq<nat>): (s: string)
    requires ValidDraws(level, first, rest)
    ensures IsGameNumber(s, level)
    ensures s[0] == DigitChar(first + 1)
    ensures forall k :: 0 <= k < |rest| ==> s[k + 1] == DigitChar(rest[k])
  {
    [DigitChar(first + 1)] + seq(|rest|, k requires 0 <= k < |rest| => DigitChar(rest[k]))
  }

  /** The position of a digit character in "0123456789". */
  function DigitIndex(c: char): (d: nat)
    requires IsDigit(c)
    ensures d < 10 && DigitChar(d) == c
  {
    (c as int - '0' as int) as nat
  }

  /** The first draw that yields the non-zero digit `c`. */
  function FirstDraw(c: char): (d: nat)
    requires IsDigit(c) && c != '0'
    ensures d < 9 && DigitChar(d + 1) == c
  {
    DigitIndex(c) - 1
  }

  /** The draws that make `generate_number` return `s`. */
  function DrawsOf(s: string): (d: (nat, seq<nat>))
    requires |s| > 0 && IsDigitString(s) && s[0] != '0'
    ensures |d.1| == |s| - 1
  {
    (FirstDraw(s[0]), seq(|s| - 1, k requires 0 <= k < |s| - 1 => DigitIndex(s[k + 1])))
  }

  /** Every number the game can show at `level` comes from exactly one choice
      of draws: `DrawsOf` recovers those draws. */
  lemma GenerateNumberOnto(level: int, s: string)
    requires IsGameNumber(s, level)
    ensures ValidDraws(level, DrawsOf(s).0, DrawsOf(s).1)
    ensures GenerateNumber(level, DrawsOf(s).0, DrawsOf(s).1) == s
  {
    var (first, rest) := DrawsOf(s);
    var t := GenerateNumber(level, first, rest);
    assert |t| == |s|;
    forall k | 0 <= k < |s|
      ensures t[k] == s[k]
    {
      if k > 0 {
        assert t[k] == DigitChar(rest[k - 1]);
      }
    }
  }

  /** Different draws give different numbers. */
  lemma GenerateNumberInjective(level: int, first: nat, rest: seq<nat>)
    requires ValidDraws(level, first, rest)
    ensures DrawsOf(GenerateNumber(level, first, rest)) == (first, rest)
  {
    var s := GenerateNumber(level, first, rest);
    var d := DrawsOf(s);
    assert DigitIndex(s[0]) == first + 1;
    forall k | 0 <= k < |rest|
      ensures d.1[k] == rest[k]
    {
      assert s[k + 1] == DigitChar(rest[k]);
      assert DigitIndex(s[k + 1]) == rest[k];
    }
    assert d.0 == first && |d.1| == |rest|;
    assert d.1 == rest;
  }

  /** What the embed shows: the number (with the Answer button disabled), the
      "Guess!" prompt, or the losing message with the right number and the
      guess. */
  datatype Screen = Showing | Guessing | LostScreen(correct: string, guess: string)

  /** `level`, the current `number`, the display time and its increment, and
      the two buttons of the view; `stopped` once the view is stopped. */
  datatype NumGame = NumGame(
    level: int,
    number: string,
    pauseTime: int,
    pauseIncr: int,
    screen: Screen,
    answerEnabled: bool,
    cancelEnabled: bool,
    stopped: bool)

  /** How a submitted answer is judged. */
  datatype Verdict = NotANumber | Right | Wrong

  /** The state every game reached through the ordinary protocol keeps: the
      number fits the level, and the Answer button is enabled exactly while
      the game runs and the number is hidden. */
  predicate Inv(g: NumGame) {
    && g.level >= 1
    && IsGameNumber(g.number, g.level)
    && (g.answerEnabled <==> !g.stopped && g.screen == Guessing)
    && (g.stopped <==> g.screen.LostScreen?)
    && (g.stopped ==> !g.cancelEnabled)
  }

  /** `NumberMemory()` followed by `start(initial_pause_time, pause_time_increment)`
      up to the first sleep: level one, a one-digit number on display, the
      Answer button disabled. */
  function Start(first: nat, initialPause: int, pauseIncr: int): (g: NumGame)
    requires ValidDraws(1, first, [])
    ensures Inv(g)
    ensures g.level == 1 && |g.number| == 1 && '1' <= g.number[0] <= '9'
    ensures g.number == GenerateNumber(1, first, [])
    ensures g.pauseTime == initialPause && g.pauseIncr == pauseIncr
    ensures g.screen == Showing && !g.answerEnabled && g.cancelEnabled && !g.stopped
  {
    NumGame(1, GenerateNumber(1, first, []), initialPause, pauseIncr, Showing, false, true, false)
  }

  /** `update_embed(hide=True)` after the display time: the number is
      replaced by the prompt and the Answer button is enabled. The source
      does this unconditionally, even when the game was stopped meanwhile. */
  function Hide(g: NumGame): (r: NumGame)
    ensures r.screen == Guessing && r.answerEnabled
    ensures r.level == g.level && r.number == g.number
    ensures r.pauseTime == g.pauseTime && r.pauseIncr == g.pauseIncr
    ensures r.cancelEnabled == g.cancelEnabled && r.stopped == g.stopped
    ensures Inv(g) && !g.stopped ==> Inv(r)
  {
    g.(screen := Guessing, answerEnabled := true)
  }

  /** A stale modal can stop the game during the display time; hiding the
      number afterwards enables the Answer button of the stopped game again. */
  lemma HideAfterStopEnablesAnswer(g: NumGame)
    requires Inv(g) && g.stopped
    ensures Hide(g).answerEnabled && Hide(g).stopped && !Inv(Hide(g))
  {
  }

  /** `NumModal.on_submit` with the typed `value`, given the draws for the
      next number. */
  function Submit(g: NumGame, value: string, first: nat, rest: seq<nat>): (r: (NumGame, Verdict))
    requires ValidDraws(g.level + 1, first, rest)
    ensures r.1 == NotANumber <==> !IsDigitString(value)
    ensures r.1 == Right <==> IsDigitString(value) && value == g.number
    ensures r.1 == NotANumber ==> r.0 == g
    ensures r.1 == Right ==>
              && r.0.level == g.level + 1
              && r.0.pauseTime == g.pauseTime + g.pauseIncr
              && r.0.pauseIncr == g.pauseIncr
              && IsGameNumber(r.0.number, r.0.level)
              && r.0.number == GenerateNumber(g.level + 1, first, rest)
              && r.0.screen == Showing && !r.0.answerEnabled
              && r.0.cancelEnabled == g.cancelEnabled && r.0.stopped == g.stopped
    ensures r.1 == Wrong ==>
              && r.0.level == g.level && r.0.number == g.number
              && r.0.pauseTime == g.pauseTime && r.0.pauseIncr == g.pauseIncr
              && r.0.screen == LostScreen(g.number, value)
              && !r.0.answerEnabled && !r.0.cancelEnabled && r.0.stopped
  {
    if !IsDigitString(value) then (g, NotANumber)
    else if value == g.number then
      var level := g.level + 1;
      (g.(level := level, pauseTime := g.pauseTime + g.pauseIncr,
          number := GenerateNumber(level, first, rest), screen := Showing, answerEnabled := false),
       Right)
    else
      (g.(screen := LostScreen(g.number, value), answerEnabled := false, cancelEnabled := false,
          stopped := true),
       Wrong)
  }

  /** An answer submitted through the enabled Answer button keeps the
      invariant, whatever it is. */
  lemma SubmitKeepsInv(g: NumGame, value: string, first: nat, rest: seq<nat>)
    requires Inv(g) && g.answerEnabled
    requires ValidDraws(g.level + 1, first, rest)
    ensures Inv(Submit(g, value, first, rest).0)
  {
    var r := Submit(g, value, first, rest);
    if r.1 == Right {
      assert r.0.stopped == g.stopped && r.0.screen == Showing;
    }
  }

  /** Every number of the next level can follow a right answer: the draws
      `DrawsOf` recovers make `Submit` show exactly that number. */
  lemma NextNumberCanBeAny(g: NumGame, s: string)
    requires IsDigitString(g.number) && IsGameNumber(s, g.level + 1)
    ensures ValidDraws(g.level + 1, DrawsOf(s).0, DrawsOf(s).1)
    ensures var r := Submit(g, g.number, DrawsOf(s).0, DrawsOf(s).1);
            r.1 == Right && r.0.number == s
  {
    GenerateNumberOnto(g.level + 1, s);
  }

  /** Every non-zero one-digit number can open a game: the draw `DrawsOf`
      recovers makes `Start` show exactly that number. */
  lemma StartCanShowAny(s: string, initialPause: int, pauseIncr: int)
    requires IsGameNumber(s, 1)
    ensures ValidDraws(1, DrawsOf(s).0, DrawsOf(s).1) && DrawsOf(s).1 == []
    ensures Start(DrawsOf(s).0, initialPause, pauseIncr).number == s
  {
    GenerateNumberOnto(1, s);
  }

  /** The right answer is always a digit string, and the same digits with a
      leading zero are judged wrong: the comparison is on text, not value. */
  lemma LeadingZeroIsWrong(g: NumGame, first: nat, rest: seq<nat>)
    requires Inv(g)
    requires ValidDraws(g.level + 1, first, rest)
    ensures Submit(g, g.number, first, rest).1 == Right
    ensures Submit(g, "0" + g.number, first, rest).1 == Wrong
  {
    var z := "0" + g.number;
    assert z[0] == '0' && g.number[0] != '0';
    assert forall k :: 0 <= k < |z| ==> IsDigit(z[k]) by {
      forall k | 0 <= k < |z|
        ensures IsDigit(z[k])
      {
        if k > 0 {
          assert z[k] == g.number[k - 1];
        }
      }
    }
  }

  /** The draws for one round: the digits of the next number. */
  datatype Round = Round(first: nat, rest: seq<nat>)

  /** Each round draws a number one digit longer than the one before. */
  predicate ValidRounds(level: int, rounds: seq<Round>)
    decreases |rounds|
  {
    rounds == [] || (ValidDraws(level + 1, rounds[0].first, rounds[0].rest) && ValidRounds(level + 1, rounds[1..]))
  }

  /** A player who always types the number back: each round hides the
      number, submits it, and draws the next one. */
  function PlayPerfect(g: NumGame, rounds: seq<Round>): (r: NumGame)
    requires Inv(g) && g.screen == Showing
    requires ValidRounds(g.level, rounds)
    ensures Inv(r) && r.screen == Showing
    decreases |rounds|
  {
    if rounds == [] then g
    else
      var h := Hide(g);
      var (n, v) := Submit(h, h.number, rounds[0].first, rounds[0].rest);
      PlayPerfect(n, rounds[1..])
  }

  /** After `n` perfect rounds the level has grown by `n`, the display time
      by `n` increments, and the game still runs. */
  lemma {:induction false} PerfectRoundsLevel(g: NumGame, rounds: seq<Round>)
    requires Inv(g) && g.screen == Showing
    requires ValidRounds(g.level, rounds)
    ensures PlayPerfect(g, rounds).level == g.level + |rounds|
    ensures PlayPerfect(g, rounds).pauseTime == g.pauseTime + |rounds| * g.pauseIncr
    ensures PlayPerfect(g, rounds).number != [] && !PlayPerfect(g, rounds).stopped
    decreases |rounds|
  {
    if rounds != [] {
      var n := PerfectStep(g, rounds);
      PerfectRoundsLevel(n, rounds[1..]);
      assert |rounds| * g.pauseIncr == g.pauseIncr + (|rounds| - 1) * g.pauseIncr;
    }
  }

  /** One perfect round: the typed number is judged right, so the level and
      the display time grow by one step and the rest of the rounds continue
      from there. */
  lemma PerfectStep(g: NumGame, rounds: seq<Round>) returns (n: NumGame)
    requires Inv(g) && g.screen == Showing
    requires ValidRounds(g.level, rounds) && rounds != []
    ensures Inv(n) && n.screen == Showing && ValidRounds(n.level, rounds[1..])
    ensures n.level == g.level + 1 && n.pauseIncr == g.pauseIncr
    ensures n.pauseTime == g.pauseTime + g.pauseIncr
    ensures PlayPerfect(g, rounds) == PlayPerfect(n, rounds[1..])
  {
    var h := Hide(g);
    var r := Submit(h, h.number, rounds[0].first, rounds[0].rest);
    assert r.1 == Right;
    n := r.0;
  }
}

=== FILE: results.dfy ===
/** Success/failure results shared by the three games: an operation that the
    source aborts with an exception returns `Failure` here instead. */
module Results {

  datatype Result<+T, +E> = Success(value: T) | Failure(error: E) {

    predicate IsFailure() {
      Failure?
    }

    function PropagateFailure<U>(): Result<U, E>
      requires Failure?
    {
      Failure(error)
    }

    function Extract(): T
      requires Success?
    {
      value
    }
  }
}

=== FILE: verbal_memory.dfy ===
/** The verbal memory game (verbal_memory.py): words are shown one at a time
    and the player answers whether each was seen before. A right answer scores
    a point, a wrong one costs a life, and the game is lost when the lives run
    out. The next word is either a fresh one taken out of the pool or one of
    the words already seen.

    The choices `choose_word` makes with the random generator (which pool
    entry, which seen word, and which of the two) are passed in as a `Pick`. */
module VerbalMemory {
  import opened Results

  /** The two answer buttons. */
  datatype Button = Seen | New

  /** The marker in front of a line of the description: "+" for a score just
      gained, "-" for a life just lost, "•" otherwise. */
  datatype Mark = Plus | Minus | Dot

  /** What `update_description` writes: the score line and the lives line. */
  datatype Description = Description(scoreMark: Mark, score: int, livesMark: Mark, lives: int)

  datatype Status = Playing | Lost

  /** The pool `wordSet` still to draw fresh words from, the list `seen` of
      words shown and recorded, the word on display, score, lives, the embed
      title and description, and whether the view still runs. */
  datatype VerbalGame = VerbalGame(
    wordSet: seq<string>,
    seen: seq<string>,
    word: string,
    score: int,
    lives: int,
    title: string,
    description: Description,
    status: Status)

  /** `random.choice` on an empty pool raises. */
  datatype ChoiceError = EmptyPool

  /** The random choices of one `choose_word` call: an index into the pool, an
      index into `seen`, and whether the weighted draw takes the seen word. */
  datatype Pick = Pick(newIndex: nat, seenIndex: nat, takeSeen: bool)

  /** The title shown once the game is lost. */
  const LostTitle: string := "You Lost!"

  predicate NoDup(s: seq<string>) {
    forall i, j :: 0 <= i < j < |s| ==> s[i] != s[j]
  }

  /** The indices of `p` name entries wherever there are entries to name. */
  predicate ValidPick(wordSet: seq<string>, seen: seq<string>, p: Pick) {
    && (wordSet != [] ==> p.newIndex < |wordSet|)
    && (seen != [] ==> p.seenIndex < |seen|)
  }

  /** The position of the first copy of `w` in `s`. */
  function FirstIndex(s: seq<string>, w: string): (i: nat)
    requires w in s
    ensures i < |s| && s[i] == w && w !in s[..i]
    decreases |s|
  {
    if s[0] == w then 0
    else
      assert s == [s[0]] + s[1..];
      var j := FirstIndex(s[1..], w);
      assert s[..j + 1] == [s[0]] + s[1..][..j];
      1 + j
  }

  /** `list.remove`: drops the first occurrence of `w`, if there is one
      (`RemoveFirstDropsFirst` and `RemoveFirstAbsent` say which copy goes). */
  function RemoveFirst(s: seq<string>, w: string): (r: seq<string>)
    ensures multiset(r) == multiset(s) - multiset{w}
    ensures |r| == if w in s then |s| - 1 else |s|
  {
    if s == [] then []
    else if s[0] == w then
      assert s == [s[0]] + s[1..];
      s[1..]
    else
      assert s == [s[0]] + s[1..];
      [s[0]] + RemoveFirst(s[1..], w)
  }

  /** Without a copy of `w`, removing it leaves the list as it was. */
  lemma {:induction false} RemoveFirstAbsent(s: seq<string>, w: string)
    requires w !in s
    ensures RemoveFirst(s, w) == s
    decreases |s|
  {
    if s != [] {
      assert s == [s[0]] + s[1..];
      RemoveFirstAbsent(s[1..], w);
    }
  }

  /** Removing `w` cuts out exactly its first copy and keeps the rest in
      order. */
  lemma {:induction false} RemoveFirstDropsFirst(s: seq<string>, w: string)
    requires w in s
    ensures RemoveFirst(s, w) == s[..FirstIndex(s, w)] + s[FirstIndex(s, w) + 1..]
    decreases |s|
  {
    if s[0] == w {
      assert s[..0] == [];
    } else {
      var t := s[1..];
      assert s == [s[0]] + t;
      assert w in t;
      RemoveFirstDropsFirst(t, w);
      var j := FirstIndex(t, w);
      assert FirstIndex(s, w) == j + 1;
      assert RemoveFirst(s, w) == [s[0]] + RemoveFirst(t, w);
      CutAfterHead(s[0], t, j);
    }
  }

  /** Cutting entry `j` out of a tail is cutting entry `j + 1` out of the
      whole list. */
  lemma CutAfterHead(x: string, t: seq<string>, j: nat)
    requires j < |t|
    ensures [x] + (t[..j] + t[j + 1..]) == ([x] + t)[..j + 1] + ([x] + t)[j + 2..]
  {
    assert ([x] + t)[..j + 1] == [x] + t[..j];
    assert ([x] + t)[j + 2..] == t[j + 1..];
  }

  /** The tail of a list without repeats has none, and misses the head. */
  lemma NoDupTail(s: seq<string>)
    requires NoDup(s) && s != []
    ensures NoDup(s[1..]) && s[0] !in s[1..]
    ensures forall x :: x in s <==> x == s[0] || x in s[1..]
  {
    forall i, j | 0 <= i < j < |s[1..]|
      ensures s[1..][i] != s[1..][j]
    {
      assert s[1..][i] == s[i + 1] && s[1..][j] == s[j + 1];
    }
    forall k | 0 <= k < |s[1..]|
      ensures s[1..][k] != s[0]
    {
      assert s[1..][k] == s[k + 1];
    }
    assert s == [s[0]] + s[1..];
  }

  /** Putting a new word in front of a list without repeats keeps it so. */
  lemma NoDupCons(x: string, r: seq<string>)
    requires NoDup(r) && x !in r
    ensures NoDup([x] + r)
  {
    forall i, j | 0 <= i < j < |[x] + r|
      ensures ([x] + r)[i] != ([x] + r)[j]
    {
      if i > 0 {
        assert ([x] + r)[i] == r[i - 1];
      }
      assert ([x] + r)[j] == r[j - 1];
    }
  }

  /** On a list without repeats, removing `w` removes every copy of it and
      keeps the list free of repeats. */
  lemma {:induction false} RemoveFirstNoDup(s: seq<string>, w: string)
    requires NoDup(s)
    ensures w !in RemoveFirst(s, w)
    ensures NoDup(RemoveFirst(s, w))
    ensures forall x :: x in RemoveFirst(s, w) <==> x in s && x != w
    decreases |s|
  {
    if s != [] {
      NoDupTail(s);
      if s[0] != w {
        RemoveFirstNoDup(s[1..], w);
        var r := RemoveFirst(s[1..], w);
        NoDupCons(s[0], r);
        assert RemoveFirst(s, w) == [s[0]] + r;
      }
    }
  }

  /** `choose_word`: a fresh word from the pool, or, once some word has been
      seen, possibly a seen word instead; the chosen word is then removed from
      the pool if it is there. Returns the word and the new pool. */
  function ChooseWord(wordSet: seq<string>, seen: seq<string>, p: Pick): (r: Result<(string, seq<string>), ChoiceError>)
    requires ValidPick(wordSet, seen, p)
    ensures r.Failure? <==> wordSet == []
    ensures r.Success? && (seen == [] || !p.takeSeen) ==> r.value.0 == wordSet[p.newIndex]
    ensures r.Success? && seen != [] && p.takeSeen ==> r.value.0 == seen[p.seenIndex]
    ensures r.Success? ==> multiset(r.value.1) == multiset(wordSet) - multiset{r.value.0}
    ensures r.Success? ==> |wordSet| - 1 <= |r.value.1| <= |wordSet|
  {
    if wordSet == [] then Failure(EmptyPool)
    else
      var drawn := wordSet[p.newIndex];
      var word := if seen != [] && p.takeSeen then seen[p.seenIndex] else drawn;
      Success((word, RemoveFirst(wordSet, word)))
  }

  /** The chosen word is a pool entry or a seen word, and with no seen word
      yet it is a pool entry. */
  lemma ChooseWordSource(wordSet: seq<string>, seen: seq<string>, p: Pick)
    requires ValidPick(wordSet, seen, p) && wordSet != []
    ensures ChooseWord(wordSet, seen, p).value.0 in wordSet + seen
    ensures seen == [] ==> ChooseWord(wordSet, seen, p).value.0 in wordSet
  {
    var w := ChooseWord(wordSet, seen, p).value.0;
    if seen != [] && p.takeSeen {
      assert (wordSet + seen)[|wordSet| + p.seenIndex] == w;
    } else {
      assert (wordSet + seen)[p.newIndex] == w;
    }
  }

  /** With a pool free of repeats, the chosen word is no longer in the pool
      and the pool keeps every other word. */
  lemma ChooseWordLeavesPool(wordSet: seq<string>, seen: seq<string>, p: Pick)
    requires ValidPick(wordSet, seen, p) && wordSet != [] && NoDup(wordSet)
    ensures var (w, pool) := ChooseWord(wordSet, seen, p).value;
            && w !in pool
            && NoDup(pool)
            && forall x :: x in pool <==> x in wordSet && x != w
  {
    RemoveFirstNoDup(wordSet, ChooseWord(wordSet, seen, p).value.0);
  }

  /** A pool may hold a word twice (a sample drawn with replacement); then
      the word drawn stays in the pool after `choose_word`. */
  lemma DuplicateStaysInPool()
    ensures var r := ChooseWord(["ape", "ape"], [], Pick(0, 0, false));
            r.Success? && r.value.0 == "ape" && "ape" in r.value.1
  {
    var r := ChooseWord(["ape", "ape"], [], Pick(0, 0, false));
    assert r.value.1 == ["ape"];
  }

  /** `VerbalMemory(word_set)` followed by `start(lives)`: the first word is
      drawn from the pool, nothing is seen, the score is zero and both
      description markers are neutral. An empty pool fails the source's
      assertion. */
  function Start(pool: seq<string>, lives: int, p: Pick): (r: Result<VerbalGame, ChoiceError>)
    requires ValidPick(pool, [], p)
    ensures r.Failure? <==> pool == []
    ensures r.Success? ==>
              && r.value.word == pool[p.newIndex]
              && r.value.seen == [] && r.value.score == 0 && r.value.lives == lives
              && multiset(r.value.wordSet) == multiset(pool) - multiset{r.value.word}
              && r.value.title == r.value.word
              && r.value.description == Description(Dot, 0, Dot, lives)
              && r.value.status == Playing
  {
    var chosen :- ChooseWord(pool, [], p);
    Success(VerbalGame(chosen.1, [], chosen.0, 0, lives, chosen.0, Description(Dot, 0, Dot, lives), Playing))
  }

  /** The button press is right: "Seen" for a word in `seen`, "New" for one
      that is not. */
  predicate IsCorrect(g: VerbalGame, b: Button) {
    (b == Seen && g.word in g.seen) || (b == New && g.word !in g.seen)
  }

  /** Exactly one of the two buttons is the right answer, and "Seen" is the
      right one exactly when the word was shown before. */
  lemma IsCorrectExactlyOne(g: VerbalGame)
    ensures IsCorrect(g, Seen) != IsCorrect(g, New)
    ensures IsCorrect(g, Seen) <==> g.word in g.seen
  {
  }

  /** `seen` after the current word has been recorded. */
  function SeenAfter(g: VerbalGame): (s: seq<string>)
    ensures g.seen <= s
    ensures forall w :: w in s <==> w in g.seen || w == g.word
    ensures |s| == if g.word in g.seen then |g.seen| else |g.seen| + 1
  {
    if g.word in g.seen then g.seen else g.seen + [g.word]
  }

  /** `VerbalButton.callback` for "Seen" or "New". The answer is judged, the
      score or the lives change, and the description marks which. At zero
      lives the game is lost on the spot; otherwise the word is recorded as
      seen and the next word is chosen. */
  function Answer(g: VerbalGame, b: Button, p: Pick): (r: Result<VerbalGame, ChoiceError>)
    requires g.status == Playing
    requires ValidPick(g.wordSet, SeenAfter(g), p)
    ensures var lost := !IsCorrect(g, b) && g.lives - 1 == 0;
            r.Failure? <==> !lost && g.wordSet == []
    ensures r.Success? ==>
              && r.value.score == (if IsCorrect(g, b) then g.score + 1 else g.score)
              && r.value.lives == (if IsCorrect(g, b) then g.lives else g.lives - 1)
              && (r.value.description.scoreMark == Plus <==> IsCorrect(g, b))
              && (r.value.description.livesMark == Minus <==> !IsCorrect(g, b))
              && r.value.description.scoreMark != Minus && r.value.description.livesMark != Plus
              && r.value.description.score == r.value.score
              && r.value.description.lives == r.value.lives
    ensures r.Success? && r.value.status == Lost <==> r.Success? && !IsCorrect(g, b) && g.lives == 1
    ensures r.Success? && r.value.status == Lost ==>
              && r.value.title == LostTitle
              && r.value.seen == g.seen && r.value.word == g.word && r.value.wordSet == g.wordSet
    ensures r.Success? && r.value.status == Playing ==>
              && g.word in r.value.seen
              && r.value.seen == SeenAfter(g)
              && r.value.title == r.value.word
              && multiset(r.value.wordSet) == multiset(g.wordSet) - multiset{r.value.word}
    ensures r.Success? && r.value.status == Playing ==>
              && (p.takeSeen ==> r.value.word == SeenAfter(g)[p.seenIndex])
              && (!p.takeSeen ==> r.value.word == g.wordSet[p.newIndex])
              && r.value.word in g.wordSet + SeenAfter(g)
  {
    var correct := IsCorrect(g, b);
    var score := if correct then g.score + 1 else g.score;
    var lives := if correct then g.lives else g.lives - 1;
    var description := Description(if correct then Plus else Dot, score, if correct then Dot else Minus, lives);
    if !correct && lives == 0 then
      Success(g.(lives := lives, title := LostTitle, description := description, status := Lost))
    else
      var seen := SeenAfter(g);
      var chosen :- ChooseWord(g.wordSet, seen, p);
      Success(g.(wordSet := chosen.1, seen := seen, word := chosen.0, score := score, lives := lives,
                 title := chosen.0, description := description))
  }

  /** What every game keeps: `seen` has no repeats, the description shows
      the current score and lives, a lost game shows the losing title at
      zero lives, a running one shows its word. */
  predicate Inv(g: VerbalGame) {
    && NoDup(g.seen)
    && g.description.score == g.score && g.description.lives == g.lives
    && (g.status == Lost ==> g.lives == 0 && g.title == LostTitle)
    && (g.status == Playing ==> g.title == g.word)
  }

  /** A game keeps no word in two places: the pool has no repeats and holds
      neither the word on display nor any seen word. */
  predicate Fresh(g: VerbalGame) {
    && NoDup(g.wordSet)
    && g.word !in g.wordSet
    && forall k :: 0 <= k < |g.seen| ==> g.seen[k] !in g.wordSet
  }

  lemma StartInv(pool: seq<string>, lives: int, p: Pick)
    requires ValidPick(pool, [], p) && pool != []
    ensures Inv(Start(pool, lives, p).value)
    ensures NoDup(pool) ==> Fresh(Start(pool, lives, p).value)
  {
    if NoDup(pool) {
      ChooseWordLeavesPool(pool, [], p);
    }
  }

  /** Recording the word keeps `seen` free of repeats. */
  lemma SeenAfterNoDup(g: VerbalGame)
    requires NoDup(g.seen)
    ensures NoDup(SeenAfter(g))
  {
    if g.word !in g.seen {
      var s := g.seen + [g.word];
      forall i, j | 0 <= i < j < |s|
        ensures s[i] != s[j]
      {
        if j == |g.seen| {
          assert s[i] == g.seen[i];
        }
      }
    }
  }

  /** Every answer keeps the invariant, and keeps a fresh game fresh. */
  lemma AnswerKeepsInv(g: VerbalGame, b: Button, p: Pick)
    requires Inv(g) && g.status == Playing
    requires ValidPick(g.wordSet, SeenAfter(g), p)
    requires Answer(g, b, p).Success?
    ensures Inv(Answer(g, b, p).value)
    ensures Fresh(g) ==> Fresh(Answer(g, b, p).value)
  {
    var r := Answer(g, b, p).value;
    SeenAfterNoDup(g);
    if r.status == Playing && Fresh(g) {
      var seen := SeenAfter(g);
      ChooseWordLeavesPool(g.wordSet, seen, p);
      assert r.seen == seen;
      forall k | 0 <= k < |seen|
        ensures seen[k] !in r.wordSet
      {
        if k < |g.seen| {
          assert seen[k] == g.seen[k];
        }
      }
    }
  }

  /** In a fresh game the word on display is in `seen` exactly when it has
      been shown before, so the first word is new: "New" scores and "Seen"
      costs a life. */
  lemma FirstWordIsNew(g: VerbalGame, p: Pick)
    requires g.status == Playing && g.seen == []
    requires ValidPick(g.wordSet, SeenAfter(g), p) && g.wordSet != []
    ensures Answer(g, New, p).value.score == g.score + 1
    ensures Answer(g, Seen, p).value.lives == g.lives - 1
    ensures Answer(g, Seen, p).value.description.livesMark == Minus
  {
  }

  /** Starting with no lives (`lives <= 0`) the game can never be lost: the
      handler ends it only when the decremented count is exactly zero. */
  lemma NoLivesNeverLost(g: VerbalGame, b: Button, p: Pick)
    requires g.status == Playing && g.lives <= 0
    requires ValidPick(g.wordSet, SeenAfter(g), p)
    requires Answer(g, b, p).Success?
    ensures Answer(g, b, p).value.status == Playing
    ensures Answer(g, b, p).value.lives <= 0
  {
  }
}
